=== FILE: README.md ===
# pipecat-service decision rules in Dafny

This project models the deterministic core of the StrongMind pipecat-service, a
voice-bot service built on Pipecat, Daily and Amazon Nova Sonic. It covers four parts:

- **Tool-call bridge** (`tool_processor.py`, module `ToolBridge`). It turns a
  language-model function call into one POST to the Central API and answers it
  with exactly one result frame. It also injects the learning context and keeps
  the HTTP client session.
- **Nova bot** (`bot-nova.py`, module `NovaBot`):
  - the `TalkingAnimation` state machine;
  - the older `ToolProcessor` variant, with its closed endpoint table and JSON-text results;
  - the `learning_component` callback;
  - the way `main` reads the `-c` payload and wires the processor.
- **Server** (`server.py`, module `Server`):
  - bot-module selection (`get_bot_file`) and the path routes' bot-type check;
  - the per-room admission limit over the `bot_procs` registry;
  - the custom payload of the connect endpoints, the status lookup and the
    four spawning endpoints.
- **Auth** (`auth.py`, module `Auth`):
  - the basic-credential check;
  - the JWKS cache;
  - the key lookup by `kid`;
  - the error mapping of `verify_jwt_token`;
  - the dispatch of `verify_auth`.

Supporting modules:

- `Common`: options, results, JSON values, `dict.get`, truthiness.
- `Text`: Python's `lower`, `strip`, `startswith`, the ASCII test, `str(int)`.
- `Frames`: the pipeline frames.
- `Handoff`: the server-to-bot payload.

Everything the services do through other systems is an input to the model:

- HTTP answers and exceptions are `HttpOutcome` and `FetchOutcome`.
- Room creation is `RoomApi`.
- `subprocess.Popen` is `SpawnOutcome`.
- `poll()` is the `alive` flag of a registry entry.
- The clock is `now`, in seconds.
- Environment variables are optional parameters.
- The JWT library is `JwtLib`.
- FastAPI's `HTTPBearer`/`HTTPBasic` parsing is `AuthRequest`.

Where the code and its tests disagree, the model follows the code:

- The bridge always prepends `Bearer ` to the configured token, even one that
  already carries it (`ToolBridge.BearerNotDeduplicated`).
- The bridge logs nothing about a missing token.

## Model

| member | source | states |
|---|---|---|
| ToolBridge.NewProcessor | tool_processor.py:27-32 | base URL is the truthy argument, else `CENTRAL_API_URL`, else `http://localhost:3001`; token is the truthy argument, else `CENTRAL_AUTH_TOKEN`; context defaults to `{}`; no session yet |
| ToolBridge.GetSession | tool_processor.py:34-38 | a session is created only when none is open; an open one is returned with the processor unchanged; configuration never changes |
| ToolBridge.Cleanup | tool_processor.py:118-122 | closes exactly the open session, if any, and resets it to none, changing nothing else |
| ToolBridge.CleanupIdempotent | tool_processor.py:118-122 | a second cleanup closes nothing and changes nothing |
| ToolBridge.FreshSessionAfterCleanup | tool_processor.py:34-38 | after cleanup the next `_get_session` creates a session different from the one closed |
| ToolBridge.Inject | tool_processor.py:62-66 | only `learning_component` arguments change; exactly `course_id`/`component_id` present in the context are added or overwritten, every other key keeps its value |
| ToolBridge.InjectIdempotent | tool_processor.py:62-66 | injecting twice gives the arguments injecting once gives |
| ToolBridge.Headers | tool_processor.py:57-60 | `Content-Type: application/json` always; `Authorization` present iff the token is truthy, with value `Bearer ` + token |
| ToolBridge.BearerNotDeduplicated | tool_processor.py:58-59 | an already prefixed token is sent as `Bearer Bearer …` |
| ToolBridge.ResultOf | tool_processor.py:68-82 | total: 200 gives the decoded body verbatim, another status the `Tool execution failed: ` error object with the response text, an exception the `Tool execution error: ` one |
| ToolBridge.ErrorResultsDistinguishable | tool_processor.py:75-82 | an upstream failure never equals a transport error, and two upstream failures give equal results iff their texts are equal |
| ToolBridge.CallCentralTool | tool_processor.py:52-82 | for every tool name the URL is base + `/api/nova_sonic/tools/` + name, the headers and injected body are as above, and the result is the outcome's mapping |
| ToolBridge.ProcessFrame | tool_processor.py:84-116 | a function call yields one result frame with the same name, call id and direction, the injected arguments and the result; any other frame is pushed once, unchanged |
| ToolBridge.ProcessStream | tool_processor.py:84-116 | over a stream: one push per input, in order, each answering its input; configuration unchanged; at most one session created, none when one is open, none without a call |
| NovaBot.AnimationFor | bot-nova.py:99-107 | the only animation frames emitted are the talking sprite and the still image |
| NovaBot.Animate | bot-nova.py:90-109 | start while quiet emits the sprite and starts talking; start while talking emits nothing; stop always emits the still image and stops; every frame is forwarded once, last |
| NovaBot.AnimateStream | bot-nova.py:90-109 | each input is forwarded exactly once, last of its block, after at most one frame, which is the talking sprite or the still image pushed downstream |
| NovaBot.EmittedAreInserted | bot-nova.py:90-109 | the animation frames a run emits are exactly the frames pushed ahead of the inputs, in the order they were pushed |
| NovaBot.ConsistentPreserved | bot-nova.py:99-107 | the talking flag matches the last animation shown and the sprite is never shown twice in a row, preserved by any stream |
| NovaBot.AnimationAlternates | bot-nova.py:86-109 | from the initial state, sprite and still image alternate and the flag is true iff the sprite was shown last |
| NovaBot.EndpointIsToolsPath | bot-nova.py:146-150 | every endpoint of the closed table is the unified path for that tool name |
| NovaBot.VariantCallCentralTool | bot-nova.py:133-183 | a session is acquired for every tool; an unknown tool gets the `Unknown tool: ` error and no request; a known tool is called exactly as the unified bridge calls it |
| NovaBot.VariantProcessFrame | bot-nova.py:185-216 | a function call yields one result frame carrying the JSON text of the result and no arguments; other frames pass unchanged |
| NovaBot.VariantAnswersLikeBridge | bot-nova.py:185-216 | for a tool in the table the variant leaves the same processor and answers with the bridge's frame, minus the arguments and with the result as JSON text; other frames are handled identically |
| NovaBot.CallbackInjection | bot-nova.py:302-305 | the `learning_component` callback copies `course_id` and `component_id` from a set, non-empty context exactly as the bridge's own injection does for that context, and passes the arguments through unchanged when the context is unset or empty |
| NovaBot.Callback | bot-nova.py:298-322 | every callback issues a request; the `learning_component` double injection makes the same call as a single one when the processor holds the same context |
| NovaBot.ReadCustom | bot-nova.py:241-256 | without a decodable payload the defaults stay; an object supplies the three fields, the context defaulting to `{}` only when absent; a non-object stops the bot |
| NovaBot.BotProcessor | bot-nova.py:347 | the processor `main` builds holds the context `main` holds, or `{}` when that is falsy |
| NovaBot.MainCallbacksInjectOnce | bot-nova.py:298-347 | as wired by `main`, every callback makes exactly the call the variant makes |
| Server.BotImplementation | server.py:68-75 | the selected name is never empty and never starts or ends with whitespace |
| Server.NamedBotType | server.py:68-69 | a non-empty `bot_type` is lower-cased and stripped, and `nova` is used when that leaves nothing |
| Server.BotTypeOverridesSetting | server.py:68-71 | a non-empty `bot_type` selects the same name whatever `BOT_IMPLEMENTATION` holds |
| Server.EmptyBotTypeIsAbsent | server.py:68-71 | an empty `bot_type` selects exactly what an absent one selects |
| Server.SettingDecides | server.py:70-75 | without a usable `bot_type` the setting, lower-cased and stripped, decides; `nova` when it is unset or blank |
| Server.RouteAccepts | server.py:355-359 | the path routes (also server.py:267) accept a type whose lower-cased form is an implementation name; such a type is non-empty with no surrounding whitespace |
| Server.LiveCount | server.py:162-164 | the count of running bots in a room is zero exactly when no bot registered for it is still running, and at most the registry's size |
| Server.GetBotFile | server.py:56-81 | `bot-<name>` iff the normalised name is one of the four, else the `Invalid bot implementation` message |
| Server.GetBotFileIsOneOfFour | server.py:77-81 | the only module names ever returned are `bot-openai`, `bot-gemini`, `bot-nova`, `bot-polly` |
| Server.BlankBotTypeSelectsNova | server.py:68-75 | a whitespace-only `bot_type` selects `bot-nova` whatever the setting |
| Server.DefaultSelectsNova | server.py:71-81 | with no `bot_type` and no setting, `bot-nova` is selected |
| Server.RouteAcceptedSelectsBot | server.py:355-374 | a type the route accepts selects `bot-` + its lower-cased form |
| Server.RoutesDoNotStrip | server.py:267-271 | a valid name plus trailing whitespace is rejected by the routes but accepted by `get_bot_file` |
| Server.Admission | server.py:161-166 | refused with 500 exactly when a running bot is registered for the room |
| Server.RegisterKeepsLimit | server.py:162-177 | registering a running bot in a room with none keeps every room within `MAX_BOTS_PER_ROOM` |
| Server.Exited | server.py:163 | a process exiting changes only its own entry's liveness |
| Server.ExitKeepsLimit | server.py:162-166 | a process exiting never takes a room over the limit |
| Server.GetStatus | server.py:312-334 | an unauthenticated lookup: 404 iff the pid is unregistered; otherwise `running` iff the process is alive, `finished` iff it exited |
| Server.StatusAfterLaunch | server.py:313-334 | a launched bot reports `running`, and `finished` once its process exits; every other pid reports what it did before the launch |
| Server.CreateRoomAndToken | server.py:114-135 | the configured sample room with its configured token when set; otherwise the created room's URL with the token issued for it, both required, else 500 |
| Server.SampleRoomIgnoresApi | server.py:123-125 | with a sample room configured, the room and token are the same whatever the Daily API would have answered |
| Server.BodyFields | server.py:212-219 | an unreadable body reads as `{}`; a decoded object gives its fields; any other body is a 500 |
| Server.CustomPayloadOf | server.py:217-226 | a payload exists iff one of the three fields is not `None`, and then carries all three |
| Server.PayloadJson | server.py:222-226 | the encoded payload has exactly the three keys with the request's values |
| Server.StartBot | server.py:168-179 | succeeds iff the bot file is valid and the spawn succeeds, registering exactly `pid -> room`; every failure is a 500 |
| Server.StartAgent | server.py:138-181 | succeeds exactly when the room is obtained, has no running bot, the module is valid and the spawn succeeds; every failure is a 500; on success the reply redirects to the room, only the spawned pid is registered, and the command runs the module `get_bot_file` selects in that room with its token and no `-c` payload |
| Server.StartAgentWithBotType | server.py:337-385 | a rejected type is a 400 before anything else; an accepted type behaves as `GET /?bot=<type>`, succeeding exactly when the room is obtained, free and the spawn succeeds, with module `bot-` + lower-cased type; its other failures are 500 |
| Server.Connect | server.py:188-245 | succeeds iff room, body, bot file and spawn all succeed, and every failure is a 500; on success it returns the room's credentials, registers the new pid as running in that room, and launches the module `get_bot_file` selects into that room with its token and the request's payload |
| Server.ConnectWithBotType | server.py:248-309 | a rejected type is a 400; an accepted one behaves as `/connect` with that type |
| Server.BrowserEndpointsKeepLimit | server.py:161-177 | the browser endpoints keep every room within the limit |
| Server.ConnectExceedsLimit | server.py:207-240 | the connect endpoints check no limit: a second bot is started in a room that already has one |
| Handoff.ArgOf | server.py:228-233 | the bot receives `-c` exactly when a custom payload exists, carrying it |
| Handoff.PayloadReachesBot | bot-nova.py:247-252 | the bot reads back the request's `system_prompt`, `tools` and `learning_context`; with no payload it keeps `{}` as context |
| Handoff.ContextReachesToolProcessor | bot-nova.py:252 | a context object sent to `/connect` becomes the bot's tool-processor context |
| Auth.JwtEnabledFrom | auth.py:13 | absent means enabled; a set value enables JWT exactly when it lower-cases to `true` |
| Auth.JwtSettingSpellings | auth.py:13 | the setting's capitalisation never matters; `TRUE` and `True` enable, ` true`, `1` and `yes` do not |
| Auth.Fresh | auth.py:42 | the initial cache (`{}`, no expiry) and any emptied cache are never served from; nor is any cache once its expiry is reached |
| Auth.CompareDigest | auth.py:29-30 | equality on ASCII text; a non-ASCII argument raises, which surfaces as 500 |
| Auth.VerifyCredentials | auth.py:26-37 | the username is returned iff both strings match the configured (or default) ones; a mismatch is 401; non-ASCII text is 500 |
| Auth.DefaultCredentialsOnly | auth.py:27-37 | without settings, exactly `admin`/`password` is accepted |
| Auth.FetchJwks | auth.py:40-60 | the cache is served iff non-empty, expiring and not expired; a 200 is stored with a one-hour expiry; anything else is a 500 that leaves the cache alone |
| Auth.FetchedKeysServedForAnHour | auth.py:42-54 | a non-empty key set fetched at t is served without download until t + 3600, and not after |
| Auth.FindKey | auth.py:64-65 | the first entry that is not an object or whose `kid` matches decides: the matching entry, or an exception; none when no entry stops the walk |
| Auth.KeyFor | auth.py:63-76 | a non-object key set raises; a missing `keys` means no key; a `keys` list is walked by `FindKey` |
| Auth.DecodeFailure | auth.py:104-118 | every exception of the decode step is answered with 401 |
| Auth.VerifyJwtToken | auth.py:79-118 | only 401 is raised; malformed header, missing `kid`, failed download, unknown `kid` and failed key lookup each map to their own reason; a found key with a decodable token yields its claims, and a decode failure yields that exception's 401; a success went through a found key and a decoded payload |
| Auth.Subject | auth.py:127 | `sub` if present, else `email`, else `unknown` |
| Auth.SubjectReadsSubThenEmail | auth.py:127 | with `sub` present no other claim changes the subject; without it only `email` does |
| Auth.BearerToken | auth.py:124-125 | `Bearer ` + the extracted token is the header |
| Auth.BySubject | auth.py:126-127 | a verified payload authenticates as its subject; a failure passes through |
| Auth.BasicPath | auth.py:132-133 | no basic credentials is 401; otherwise the credential check decides, and a refusal is that check's own error (401 on a mismatch, 500 on non-ASCII text) |
| Auth.VerifyAuth | auth.py:121-133 | with JWT on, a `Bearer ` header is verified, else a bearer credential, else basic credentials; with JWT off, basic credentials |
| Auth.BearerHeaderVerifiesItsToken | auth.py:122-127 | a header `Bearer ` + t verifies exactly t |
| Auth.VerifyAuthRefusals | auth.py:79-133 | every refusal is 401 except a non-ASCII credential comparison (500); the JWKS 500 never escapes |
| Auth.JwtDisabledUsesBasicOnly | auth.py:122-133 | with JWT off the headers, library, clock and download are ignored and the cache is untouched |
| Text.Lower | server.py:69 | `lower()` (also at server.py:71, 267, 355 and auth.py:13) keeps the length of the string |
| Text.LowerRule | server.py:69 | `lower()` maps each ASCII capital to its small letter and leaves every other character alone, position by position |
| Text.Strip | server.py:69 | `strip()` yields an infix framed by whitespace only that neither starts nor ends with whitespace |
| Text.StripIdempotent | server.py:69 | stripping twice is stripping once |

## Left out

- I/O and the HTTP clients (aiohttp sessions, `response.json()`, `response.text()`). Their results are inputs, and a 200 whose body does not decode is the exception path.
- JSON encoding and decoding (`json.dumps`, `json.loads`, `shlex.quote`). They are taken to be exact inverses. JSON numbers are integers only: floats, and Python's `True == 1` cross-type equality, are not modelled.
- `subprocess.Popen`, `poll()`, the command-line string and its quoting. The spawn is an outcome, liveness is a flag, and the command is kept as structured fields.
- The Daily REST helper, FastAPI routing, the `Depends(verify_auth)` guard, CORS, `/up`, and the lifespan manager. The guard sits on the four spawning endpoints only (`GET /`, `POST /connect`, `POST /connect/{bot_type}` and `GET /{bot_type}`), and those are modelled after authentication has passed. `GET /status/{pid}` and `/up` have no auth dependency: `Server.GetStatus` is a lookup anyone can make for any pid.
- `HTTPBearer` and `HTTPBasic` header parsing. What they extract is an input.
- JWT decoding, signature checking and the RSA/PEM construction. `JwtLib.decode` stands for the key conversion and `jwt.decode` together, and any exception there is one of its outcomes.
- `JWT_ISSUER_URL`, `JWT_JWKS_URL`, `JWT_AUDIENCE` and the algorithm list. They only configure the library calls.
- The exact texts of `str(e)` inside error details. Auth failures carry a structured `Reason` instead.
- Text.Lower: maps ASCII letters only, while Python's `lower()` also maps non-ASCII capitals. Unicode case tables are not modelled.
- Two JWKS timing details: `datetime.now()` is read twice by the source and once by the model, and the clock counts seconds.
- Logging, including the missing-token log that the tests expect but the code does not write.
- Concurrency between async handlers: each operation is one atomic step.
- Sprite loading with PIL, the Pipecat pipeline, transports and LLM services, and the rest of `main`: the system-prompt composition, and the wiring in `bot.py` and `bot-polly.py`.
- NovaBot.BotProcessor: requires the `learning_context` to be an object or a falsy value, so a truthy non-object context is not modelled. With a number or boolean there, `'course_id' in learning_context` raises `TypeError` on every `learning_component` call. With a string, `in` tests for a substring; with a list, for an element. When that test succeeds, indexing the context with the key raises `TypeError`; when it fails, nothing is injected.
- NovaBot.VariantProcessFrame: assumes Pipecat's `FunctionCallResultFrame` accepts a result frame built without `arguments`. The variant builds it that way (bot-nova.py:205-209), and the framework's own constructor is not part of this model.
- `run_tests.py` and the Pulumi infrastructure.

=== FILE: auth.dfy ===
/**
 The decision rules of `auth.py`: the basic-credential check, the JWKS cache,
 the key lookup by `kid`, the error mapping of `verify_jwt_token` and the
 dispatch of `verify_auth`.

 The JWT library, the JWKS download and the clock are inputs: `JwtLib` stands
 for `jwt.get_unverified_header` and for the key conversion plus `jwt.decode`,
 a `FetchOutcome` for the download, and `now` for `datetime.now()` in seconds.
 FastAPI's `HTTPBearer` and `HTTPBasic` parsing are inputs too: an
 `AuthRequest` carries what they extracted.
 */
module Auth {
  import opened Common
  import opened Text

  /** Why a request was refused. */
  datatype Reason =
      /** `verify_credentials`: wrong username or password. */
    | BadCredentials
      /** `HTTPBasic`: no basic credentials in the request. */
    | NotAuthenticated
      /** `secrets.compare_digest` raised `TypeError` on a non-ASCII string. */
    | NonAsciiComparison
      /** `fetch_jwks`: non-200 answer or an exception while fetching. */
    | JwksFetchFailed
      /** The token header has no truthy `kid`. */
    | MissingKid
      /** No entry of the key set carries the token's `kid`. */
    | UnknownKid(kid: Json)
      /** Walking the key set raised (it is not shaped as expected). */
    | KeyLookupFailed
      /** The key conversion or `jwt.decode` raised something that is not a JWT error. */
    | DecodeFailed
      /** `jwt.ExpiredSignatureError`. */
    | TokenExpired
      /** Any other `jwt.InvalidTokenError`, including an unreadable header. */
    | InvalidToken
      /** The generic handler of `verify_jwt_token` wrapping another failure. */
    | VerificationFailed(cause: Reason)

  /** An `HTTPException` (or the 500 an uncaught exception becomes). */
  datatype Failure = Failure(status: int, reason: Reason)

  const DefaultUsername: string := "admin"
  const DefaultPassword: string := "password"
  const AuthBearerPrefix: string := "Bearer "
  /** `timedelta(hours=1)` in seconds. */
  const CacheLifetime: int := 3600

  // ---------------------------------------------------------------------------
  // Basic credentials
  // ---------------------------------------------------------------------------

  /** `JWT_ENABLED`: the setting, `true` when absent, compared case-insensitively with `true`. */
  function JwtEnabledFrom(setting: Option<string>): (enabled: bool)
    ensures setting.None? ==> enabled
    ensures setting.Some? ==> (enabled <==> Lower(setting.value) == "true")
  {
    Lower(setting.GetOr("true")) == "true"
  }

  /**
   Any capitalisation of `true` turns JWT on; surrounding whitespace or
   another truthy spelling turns it off.
   */
  lemma JwtSettingSpellings(setting: string)
    ensures JwtEnabledFrom(Some(setting)) == JwtEnabledFrom(Some(Lower(setting)))
    ensures JwtEnabledFrom(Some("TRUE")) && JwtEnabledFrom(Some("True"))
    ensures !JwtEnabledFrom(Some(" true")) && !JwtEnabledFrom(Some("1")) && !JwtEnabledFrom(Some("yes"))
  {
    LowerIdempotent(setting);
    assert Lower("TRUE") == "true" && Lower("True") == "true";
    assert |Lower(" true")| == 5 && |Lower("1")| == 1 && |Lower("yes")| == 3;
  }

  datatype BasicCredentials = BasicCredentials(username: string, password: string)

  /** `secrets.compare_digest` on two `str` values. */
  function CompareDigest(a: string, b: string): (r: Result<bool, Failure>)
    ensures r.Ok? <==> IsAscii(a) && IsAscii(b)
    ensures r.Ok? ==> (r.value <==> a == b)
    ensures r.Err? ==> r.error == Failure(500, NonAsciiComparison)
  {
    if IsAscii(a) && IsAscii(b) then Ok(a == b) else Err(Failure(500, NonAsciiComparison))
  }

  /**
   `verify_credentials`: both strings are compared against the configured
   ones (`admin` and `password` when unset); the username is returned when
   both match, 401 otherwise. A non-ASCII string on either side makes the
   comparison raise, which surfaces as 500.
   */
  function VerifyCredentials(c: BasicCredentials, username: Option<string>, password: Option<string>): (r: Result<string, Failure>)
    ensures var u := username.GetOr(DefaultUsername);
            var p := password.GetOr(DefaultPassword);
            var ascii := IsAscii(c.username) && IsAscii(u) && IsAscii(c.password) && IsAscii(p);
            && (r.Ok? <==> ascii && c.username == u && c.password == p)
            && (r.Err? ==> (r.error == Failure(500, NonAsciiComparison) <==> !ascii))
            && (r.Err? && ascii ==> r.error == Failure(401, BadCredentials))
    ensures r.Ok? ==> r.value == c.username
  {
    var userMatches :- CompareDigest(c.username, username.GetOr(DefaultUsername));
    var passwordMatches :- CompareDigest(c.password, password.GetOr(DefaultPassword));
    if !(userMatches && passwordMatches) then Err(Failure(401, BadCredentials))
    else Ok(c.username)
  }

  /** Without configured credentials, exactly `admin` / `password` gets in. */
  lemma DefaultCredentialsOnly(c: BasicCredentials)
    ensures VerifyCredentials(c, None, None).Ok? <==> c == BasicCredentials(DefaultUsername, DefaultPassword)
    ensures VerifyCredentials(c, None, None).Ok? ==> VerifyCredentials(c, None, None).value == DefaultUsername
  {
    assert IsAscii(DefaultUsername) by {
      assert forall i :: 0 <= i < |DefaultUsername| ==> DefaultUsername[i] as int < 128;
    }
    assert IsAscii(DefaultPassword) by {
      assert forall i :: 0 <= i < |DefaultPassword| ==> DefaultPassword[i] as int < 128;
    }
  }

  // ---------------------------------------------------------------------------
  // JWKS cache
  // ---------------------------------------------------------------------------

  /** `jwks_cache` and `jwks_cache_expiry`. */
  datatype JwksCache = JwksCache(keys: Json, expiry: Option<int>)

  /**
   The cache is served without fetching: it is non-empty, has an expiry, and
   that is still ahead. The initial cache (`{}` with no expiry) is never
   fresh, and neither is any cache once its expiry is reached.
   */
  predicate Fresh(cache: JwksCache, now: int): (current: bool)
    ensures cache.keys == JObj(map[]) || cache.keys == JNull || cache.expiry.None? ==> !current
    ensures cache.expiry.Some? && cache.expiry.value <= now ==> !current
  {
    Truthy(cache.keys) && cache.expiry.Some? && now < cache.expiry.value
  }

  /** What the JWKS download produced: a response with its decoded body, or an exception. */
  datatype FetchOutcome = Fetched(status: int, body: Json) | FetchRaised

  /** The key set handed back and the cache left behind. */
  datatype Fetch = Fetch(outcome: Result<Json, Failure>, cache: JwksCache)

  /**
   `fetch_jwks`: the cached key set while it is fresh; otherwise a download,
   whose 200 body is stored with a one-hour expiry. Any other status or an
   exception is a 500 and leaves the cache as it was.
   */
  function FetchJwks(cache: JwksCache, now: int, fetch: FetchOutcome): (r: Fetch)
    ensures Fresh(cache, now) ==> r == Fetch(Ok(cache.keys), cache)
    ensures !Fresh(cache, now) ==> (r.outcome.Ok? <==> fetch.Fetched? && fetch.status == 200)
    ensures !Fresh(cache, now) && r.outcome.Ok? ==>
      r.outcome.value == fetch.body && r.cache == JwksCache(fetch.body, Some(now + CacheLifetime))
    ensures r.outcome.Err? ==> r.outcome.error == Failure(500, JwksFetchFailed) && r.cache == cache
  {
    if Fresh(cache, now) then Fetch(Ok(cache.keys), cache)
    else match fetch
      case Fetched(status, body) =>
        if status != 200 then Fetch(Err(Failure(500, JwksFetchFailed)), cache)
        else Fetch(Ok(body), JwksCache(body, Some(now + CacheLifetime)))
      case FetchRaised => Fetch(Err(Failure(500, JwksFetchFailed)), cache)
  }

  /**
   A non-empty key set fetched at `fetchedAt` is served from the cache, with
   no download, for the following hour, and only then fetched again.
   */
  lemma FetchedKeysServedForAnHour(cache: JwksCache, fetchedAt: int, body: Json, later: int, next: FetchOutcome)
    requires !Fresh(cache, fetchedAt) && Truthy(body) && fetchedAt <= later
    ensures var stored := FetchJwks(cache, fetchedAt, Fetched(200, body)).cache;
            && (later < fetchedAt + CacheLifetime ==> FetchJwks(stored, later, next) == Fetch(Ok(body), stored))
            && (later >= fetchedAt + CacheLifetime ==> !Fresh(stored, later))
  {
  }

  // ---------------------------------------------------------------------------
  // Key lookup
  // ---------------------------------------------------------------------------

  /** What `get_public_key_from_jwks` produced: the matching entry, none, or an exception. */
  datatype KeyLookup = KeyFound(entry: map<string, Json>) | NoKey | LookupRaised

  /** The loop stops at `e`: it is not an object (`.get` raises), or its `kid` matches. */
  predicate Stops(e: Json, kid: Json) {
    !e.JObj? || Get(e.fields, "kid") == kid
  }

  /** The loop of `get_public_key_from_jwks` over a list of entries. */
  function FindKey(entries: seq<Json>, kid: Json): (r: KeyLookup)
    ensures r.NoKey? <==> forall i :: 0 <= i < |entries| ==> !Stops(entries[i], kid)
    ensures r.KeyFound? ==> exists i :: (0 <= i < |entries| && entries[i] == JObj(r.entry)
      && Get(r.entry, "kid") == kid && forall j :: 0 <= j < i ==> !Stops(entries[j], kid))
    ensures r.LookupRaised? ==> exists i :: (0 <= i < |entries| && !entries[i].JObj?
      && forall j :: 0 <= j < i ==> !Stops(entries[j], kid))
  {
    if entries == [] then NoKey
    else match entries[0]
      case JObj(fields) =>
        if Get(fields, "kid") == kid then KeyFound(fields)
        else
          var r := FindKey(entries[1..], kid);
          assert forall i :: 1 <= i < |entries| ==> entries[i] == entries[1..][i - 1];
          if r.KeyFound? then
            var k :| 0 <= k < |entries[1..]| && entries[1..][k] == JObj(r.entry)
              && Get(r.entry, "kid") == kid && forall j :: 0 <= j < k ==> !Stops(entries[1..][j], kid);
            assert entries[k + 1] == JObj(r.entry);
            r
          else if r.LookupRaised? then
            var k :| 0 <= k < |entries[1..]| && !entries[1..][k].JObj?
              && forall j :: 0 <= j < k ==> !Stops(entries[1..][j], kid);
            assert !entries[k + 1].JObj?;
            r
          else r
      case _ => LookupRaised
  }

  /**
   `get_public_key_from_jwks` up to the key conversion: the key set must be an
   object; its `keys` (an empty list when absent) is walked as Python iterates
   it. An empty object or string has nothing to walk; a non-empty one yields
   strings, on which `.get` raises; any other non-list value is not iterable.
   */
  function KeyFor(jwks: Json, kid: Json): (r: KeyLookup)
    ensures !jwks.JObj? ==> r.LookupRaised?
    ensures jwks.JObj? && GetOrDefault(jwks.fields, "keys", JArr([])).JArr? ==>
      r == FindKey(GetOrDefault(jwks.fields, "keys", JArr([])).items, kid)
    ensures jwks.JObj? && "keys" !in jwks.fields ==> r.NoKey?
    ensures r.KeyFound? ==> Get(r.entry, "kid") == kid
  {
    match jwks
    case JObj(fields) =>
      (match GetOrDefault(fields, "keys", JArr([]))
       case JArr(items) => FindKey(items, kid)
       case JObj(m) => if |m| == 0 then NoKey else LookupRaised
       case JStr(s) => if s == "" then NoKey else LookupRaised
       case _ => LookupRaised)
    case _ => LookupRaised
  }

  // ---------------------------------------------------------------------------
  // Token verification
  // ---------------------------------------------------------------------------

  /** `jwt.get_unverified_header`: the header object, or a `DecodeError`. */
  datatype HeaderOutcome = Header(fields: map<string, Json>) | MalformedHeader

  /** The key conversion plus `jwt.decode`: the claims, or the exception raised. */
  datatype DecodeOutcome = Payload(claims: map<string, Json>) | ExpiredSignature | InvalidTokenRaised | OtherRaised

  /** The JWT library as functions of the token (and of the key entry found for it). */
  datatype JwtLib = JwtLib(header: string -> HeaderOutcome, decode: (string, map<string, Json>) -> DecodeOutcome)

  /** The claims of a verified token, or the failure, and the cache left behind. */
  datatype Verified = Verified(outcome: Result<map<string, Json>, Failure>, cache: JwksCache)

  /** How the handlers of `verify_jwt_token` answer what the library raised. */
  function DecodeFailure(d: DecodeOutcome): (f: Failure)
    requires !d.Payload?
    ensures f.status == 401
  {
    match d
    case ExpiredSignature => Failure(401, TokenExpired)
    case InvalidTokenRaised => Failure(401, InvalidToken)
    case OtherRaised => Failure(401, VerificationFailed(DecodeFailed))
  }

  /**
   `verify_jwt_token`: read the header, require a `kid`, fetch the key set,
   find the key, decode. Every failure leaves as 401: expiry and other JWT
   errors by their own handlers, everything else, the 500 of the fetch
   included, wrapped by the generic one.
   */
  function VerifyJwtToken(lib: JwtLib, token: string, cache: JwksCache, now: int, fetch: FetchOutcome): (r: Verified)
    ensures r.outcome.Err? ==> r.outcome.error.status == 401
    ensures r.outcome.Ok? ==>
      && lib.header(token).Header?
      && Truthy(Get(lib.header(token).fields, "kid"))
      && FetchJwks(cache, now, fetch).outcome.Ok?
      && KeyFor(FetchJwks(cache, now, fetch).outcome.value, Get(lib.header(token).fields, "kid")).KeyFound?
      && lib.decode(token, KeyFor(FetchJwks(cache, now, fetch).outcome.value, Get(lib.header(token).fields, "kid")).entry)
         == Payload(r.outcome.value)
    ensures lib.header(token).MalformedHeader? ==> r == Verified(Err(Failure(401, InvalidToken)), cache)
    ensures lib.header(token).Header? && !Truthy(Get(lib.header(token).fields, "kid")) ==>
      r == Verified(Err(Failure(401, VerificationFailed(MissingKid))), cache)
    ensures lib.header(token).Header? && Truthy(Get(lib.header(token).fields, "kid")) ==>
      r.cache == FetchJwks(cache, now, fetch).cache
    ensures lib.header(token).Header? && Truthy(Get(lib.header(token).fields, "kid")) && FetchJwks(cache, now, fetch).outcome.Err? ==>
      r.outcome == Err(Failure(401, VerificationFailed(JwksFetchFailed)))
    ensures lib.header(token).Header? && Truthy(Get(lib.header(token).fields, "kid")) && FetchJwks(cache, now, fetch).outcome.Ok? ==>
      var kid := Get(lib.header(token).fields, "kid");
      var found := KeyFor(FetchJwks(cache, now, fetch).outcome.value, kid);
      && (found.NoKey? ==> r.outcome == Err(Failure(401, VerificationFailed(UnknownKid(kid)))))
      && (found.LookupRaised? ==> r.outcome == Err(Failure(401, VerificationFailed(KeyLookupFailed))))
      && (found.KeyFound? && lib.decode(token, found.entry).Payload? ==> r.outcome == Ok(lib.decode(token, found.entry).claims))
      && (found.KeyFound? && !lib.decode(token, found.entry).Payload? ==> r.outcome == Err(DecodeFailure(lib.decode(token, found.entry))))
  {
    match lib.header(token)
    case MalformedHeader => Verified(Err(Failure(401, InvalidToken)), cache)
    case Header(fields) =>
      var kid := Get(fields, "kid");
      if !Truthy(kid) then Verified(Err(Failure(401, VerificationFailed(MissingKid))), cache)
      else
        var fetched := FetchJwks(cache, now, fetch);
        match fetched.outcome
        case Err(_) => Verified(Err(Failure(401, VerificationFailed(JwksFetchFailed))), fetched.cache)
        case Ok(jwks) =>
          match KeyFor(jwks, kid)
          case LookupRaised => Verified(Err(Failure(401, VerificationFailed(KeyLookupFailed))), fetched.cache)
          case NoKey => Verified(Err(Failure(401, VerificationFailed(UnknownKid(kid)))), fetched.cache)
          case KeyFound(entry) =>
            match lib.decode(token, entry)
            case Payload(claims) => Verified(Ok(claims), fetched.cache)
            case other => Verified(Err(DecodeFailure(other)), fetched.cache)
  }

  /** `payload.get("sub", payload.get("email", "unknown"))`. */
  function Subject(payload: map<string, Json>): (who: Json)
    ensures "sub" in payload ==> who == payload["sub"]
    ensures "sub" !in payload && "email" in payload ==> who == payload["email"]
    ensures "sub" !in payload && "email" !in payload ==> who == JStr("unknown")
  {
    GetOrDefault(payload, "sub", GetOrDefault(payload, "email", JStr("unknown")))
  }

  /**
   Only `sub` and `email` decide the subject: with `sub` present nothing else
   matters, and without it only `email` does.
   */
  lemma SubjectReadsSubThenEmail(payload: map<string, Json>, key: string, value: Json)
    requires key != "sub" && ("sub" in payload || key != "email")
    ensures Subject(payload[key := value]) == Subject(payload)
  {
  }

  // ---------------------------------------------------------------------------
  // Dispatch
  // ---------------------------------------------------------------------------

  /** `JWT_ENABLED` and the `BASIC_AUTH_USERNAME` / `BASIC_AUTH_PASSWORD` settings. */
  datatype AuthConfig = AuthConfig(jwtEnabled: bool, username: Option<string>, password: Option<string>)

  /**
   What a request offers: its `Authorization` header, what `HTTPBearer`
   extracted from it (any letter case of the scheme), and what `HTTPBasic`
   extracted from it.
   */
  datatype AuthRequest = AuthRequest(authorization: Option<string>, bearer: Option<string>, basic: Option<BasicCredentials>)

  /** The identity `verify_auth` returns, or the failure, and the cache left behind. */
  datatype Authenticated = Authenticated(outcome: Result<Json, Failure>, cache: JwksCache)

  /** The token of an `Authorization` header that starts with `Bearer `; the prefix is put back by concatenation. */
  function BearerToken(header: string): (token: string)
    requires StartsWith(header, AuthBearerPrefix)
    ensures AuthBearerPrefix + token == header
    ensures |token| == |header| - 7
  {
    header[7..]
  }

  /** A verified token authenticates as its subject. */
  function BySubject(v: Verified): (a: Authenticated)
    ensures a.cache == v.cache && (a.outcome.Ok? <==> v.outcome.Ok?)
    ensures v.outcome.Ok? ==> a.outcome.value == Subject(v.outcome.value)
    ensures v.outcome.Err? ==> a.outcome.error == v.outcome.error
  {
    match v.outcome
    case Ok(claims) => Authenticated(Ok(Subject(claims)), v.cache)
    case Err(f) => Authenticated(Err(f), v.cache)
  }

  /** The basic-credential path: `HTTPBasic` answers 401 when the request has none. */
  function BasicPath(config: AuthConfig, basic: Option<BasicCredentials>, cache: JwksCache): (a: Authenticated)
    ensures a.cache == cache
    ensures basic.None? ==> a.outcome == Err(Failure(401, NotAuthenticated))
    ensures basic.Some? ==> a.outcome.Ok? == VerifyCredentials(basic.value, config.username, config.password).Ok?
    ensures basic.Some? && a.outcome.Err? ==> a.outcome.error == VerifyCredentials(basic.value, config.username, config.password).error
    ensures a.outcome.Ok? ==> basic.Some? && a.outcome.value == JStr(basic.value.username)
  {
    match basic
    case None => Authenticated(Err(Failure(401, NotAuthenticated)), cache)
    case Some(c) =>
      match VerifyCredentials(c, config.username, config.password)
      case Ok(name) => Authenticated(Ok(JStr(name)), cache)
      case Err(f) => Authenticated(Err(f), cache)
  }

  /**
   `verify_auth`: with JWT enabled, a `Bearer ` header is verified as a token,
   else whatever `HTTPBearer` found; without either, or with JWT disabled, the
   basic credentials decide.
   */
  function VerifyAuth(config: AuthConfig, request: AuthRequest, lib: JwtLib, cache: JwksCache, now: int, fetch: FetchOutcome): (a: Authenticated)
    ensures config.jwtEnabled && HasText(request.authorization) && StartsWith(request.authorization.value, AuthBearerPrefix) ==>
      a == BySubject(VerifyJwtToken(lib, BearerToken(request.authorization.value), cache, now, fetch))
    ensures config.jwtEnabled && !(HasText(request.authorization) && StartsWith(request.authorization.value, AuthBearerPrefix))
            && request.bearer.Some? ==>
      a == BySubject(VerifyJwtToken(lib, request.bearer.value, cache, now, fetch))
    ensures config.jwtEnabled && !(HasText(request.authorization) && StartsWith(request.authorization.value, AuthBearerPrefix))
            && request.bearer.None? ==>
      a == BasicPath(config, request.basic, cache)
    ensures !config.jwtEnabled ==> a == BasicPath(config, request.basic, cache)
  {
    if config.jwtEnabled && HasText(request.authorization) && StartsWith(request.authorization.value, AuthBearerPrefix) then
      BySubject(VerifyJwtToken(lib, BearerToken(request.authorization.value), cache, now, fetch))
    else if config.jwtEnabled && request.bearer.Some? then
      BySubject(VerifyJwtToken(lib, request.bearer.value, cache, now, fetch))
    else BasicPath(config, request.basic, cache)
  }

  /**
   The token verified for a `Bearer ` header is the rest of the header: a
   header built as `Bearer ` + t verifies t.
   */
  lemma BearerHeaderVerifiesItsToken(config: AuthConfig, token: string, bearer: Option<string>, basic: Option<BasicCredentials>,
                                     lib: JwtLib, cache: JwksCache, now: int, fetch: FetchOutcome)
    requires config.jwtEnabled
    ensures var request := AuthRequest(Some(AuthBearerPrefix + token), bearer, basic);
            VerifyAuth(config, request, lib, cache, now, fetch) == BySubject(VerifyJwtToken(lib, token, cache, now, fetch))
  {
    var header := AuthBearerPrefix + token;
    assert header[..|AuthBearerPrefix|] == AuthBearerPrefix;
    assert BearerToken(header) == token;
  }

  /**
   Every refusal of `verify_auth` is a 401, except a credential comparison
   on non-ASCII text, which is a 500; the 500 of the JWKS download never
   escapes.
   */
  lemma VerifyAuthRefusals(config: AuthConfig, request: AuthRequest, lib: JwtLib, cache: JwksCache, now: int, fetch: FetchOutcome)
    ensures var a := VerifyAuth(config, request, lib, cache, now, fetch);
            a.outcome.Err? ==> a.outcome.error.status == 401 || a.outcome.error == Failure(500, NonAsciiComparison)
  {
  }

  /**
   With JWT disabled, only the basic credentials matter: the headers, the
   JWT library, the clock and the download are not consulted and the cache
   is left alone.
   */
  lemma JwtDisabledUsesBasicOnly(config: AuthConfig, request: AuthRequest, other: AuthRequest, lib: JwtLib, lib': JwtLib,
                                 cache: JwksCache, now: int, now': int, fetch: FetchOutcome, fetch': FetchOutcome)
    requires !config.jwtEnabled && request.basic == other.basic
    ensures VerifyAuth(config, request, lib, cache, now, fetch) == VerifyAuth(config, other, lib', cache, now', fetch')
    ensures VerifyAuth(config, request, lib, cache, now, fetch).cache == cache
  {
  }
}

=== FILE: bot_nova.dfy ===
/**
 The two processors of `bot-nova.py`: the `TalkingAnimation` state machine
 and the older `ToolProcessor` variant, which dispatches through a closed
 endpoint table and answers with the JSON text of the result. Also the
 `learning_component` callback that injects the learning context before
 calling the variant.
 */
module NovaBot {
  import opened Common
  import opened Frames
  import ToolBridge

  // ---------------------------------------------------------------------------
  // TalkingAnimation
  // ---------------------------------------------------------------------------

  /** The animation state after one frame, and the frames pushed for it, in order. */
  datatype Animated = Animated(talking: bool, pushes: seq<Push>)

  /**
   The animation frame emitted for `frame` in state `talking`, if any: the
   talking sprite when speech starts while quiet, the still image whenever
   speech stops.
   */
  function AnimationFor(talking: bool, frame: Frame): (a: Option<Frame>)
    ensures a.Some? ==> a.value == TalkingSprite || a.value == QuietImage
  {
    match frame
    case BotStartedSpeaking => if talking then None else Some(TalkingSprite)
    case BotStoppedSpeaking => Some(QuietImage)
    case _ => None
  }

  /**
   `TalkingAnimation.process_frame`: push the animation frame, if any, with
   the default (downstream) direction, then forward the incoming frame.
   */
  function Animate(talking: bool, input: Push): (r: Animated)
    ensures input.frame == BotStartedSpeaking && !talking ==>
      r.talking && r.pushes == [Push(TalkingSprite, Downstream), input]
    ensures input.frame == BotStartedSpeaking && talking ==> r.talking && r.pushes == [input]
    ensures input.frame == BotStoppedSpeaking ==> !r.talking && r.pushes == [Push(QuietImage, Downstream), input]
    ensures input.frame != BotStartedSpeaking && input.frame != BotStoppedSpeaking ==>
      r.talking == talking && r.pushes == [input]
  {
    var next := match input.frame
                case BotStartedSpeaking => true
                case BotStoppedSpeaking => false
                case _ => talking;
    match AnimationFor(talking, input.frame)
    case Some(a) => Animated(next, [Push(a, Downstream), input])
    case None => Animated(next, [input])
  }

  /**
   The pushes made for `input`: the input itself, last, preceded by at most
   one frame, which is an animation frame travelling downstream.
   */
  predicate Forwards(block: seq<Push>, input: Push) {
    && 1 <= |block| <= 2
    && block[|block| - 1] == input
    && (|block| == 2 ==> block[0] == Push(TalkingSprite, Downstream) || block[0] == Push(QuietImage, Downstream))
  }

  /** The frames pushed ahead of their inputs, block by block, in order. */
  function Inserted(blocks: seq<seq<Push>>): seq<Frame> {
    if blocks == [] then []
    else (if |blocks[0]| == 2 then [blocks[0][0].frame] else []) + Inserted(blocks[1..])
  }

  /**
   A run of the animation processor: the final state, the pushes made for each
   input (`blocks[i]` for `inputs[i]`) and the animation frames emitted, in order.
   */
  datatype AnimationRun = AnimationRun(talking: bool, blocks: seq<seq<Push>>, emitted: seq<Frame>)

  /**
   `TalkingAnimation.process_frame` over a stream. Each input is forwarded
   exactly once, as the last push of its block, preceded by at most one
   animation frame.
   */
  function AnimateStream(talking: bool, inputs: seq<Push>): (r: AnimationRun)
    ensures |r.blocks| == |inputs|
    ensures forall i :: 0 <= i < |inputs| ==> Forwards(r.blocks[i], inputs[i])
    ensures |r.emitted| <= |inputs|
    decreases |inputs|
  {
    if inputs == [] then AnimationRun(talking, [], [])
    else
      var step := Animate(talking, inputs[0]);
      var anim := AnimationFor(talking, inputs[0].frame);
      var rest := AnimateStream(step.talking, inputs[1..]);
      var emitted := if anim.Some? then [anim.value] + rest.emitted else rest.emitted;
      AnimationRun(rest.talking, [step.pushes] + rest.blocks, emitted)
  }

  /**
   The animation frames a run reports emitting are exactly the frames pushed
   ahead of the inputs, in the order they were pushed.
   */
  lemma {:induction false} EmittedAreInserted(talking: bool, inputs: seq<Push>)
    ensures AnimateStream(talking, inputs).emitted == Inserted(AnimateStream(talking, inputs).blocks)
    decreases |inputs|
  {
    if inputs != [] {
      var step := Animate(talking, inputs[0]);
      var rest := AnimateStream(step.talking, inputs[1..]);
      EmittedAreInserted(step.talking, inputs[1..]);
      assert ([step.pushes] + rest.blocks)[1..] == rest.blocks;
    }
  }

  /**
   The talking flag agrees with the animation last shown, and the talking
   sprite is never emitted twice without the still image in between.
   */
  predicate Consistent(talking: bool, shown: seq<Frame>) {
    && (talking <==> (|shown| > 0 && shown[|shown| - 1] == TalkingSprite))
    && forall i :: 0 <= i < |shown| - 1 && shown[i] == TalkingSprite ==> shown[i + 1] != TalkingSprite
  }

  lemma {:induction false} ConsistentPreserved(talking: bool, shown: seq<Frame>, inputs: seq<Push>)
    requires Consistent(talking, shown)
    requires forall i :: 0 <= i < |shown| ==> shown[i] == TalkingSprite || shown[i] == QuietImage
    ensures Consistent(AnimateStream(talking, inputs).talking, shown + AnimateStream(talking, inputs).emitted)
    decreases |inputs|
  {
    if inputs != [] {
      var step := Animate(talking, inputs[0]);
      var anim := AnimationFor(talking, inputs[0].frame);
      var rest := AnimateStream(step.talking, inputs[1..]);
      var shown' := if anim.Some? then shown + [anim.value] else shown;
      assert Consistent(step.talking, shown');
      assert forall i :: 0 <= i < |shown'| ==> shown'[i] == TalkingSprite || shown'[i] == QuietImage;
      ConsistentPreserved(step.talking, shown', inputs[1..]);
      if anim.Some? {
        assert shown + ([anim.value] + rest.emitted) == shown' + rest.emitted;
      }
    }
  }

  /**
   From the initial state (not talking, nothing shown), the talking sprite is
   shown again only after the still image, and the processor is talking
   exactly when the talking sprite was the last animation shown.
   */
  lemma AnimationAlternates(inputs: seq<Push>)
    ensures var r := AnimateStream(false, inputs);
            && (r.talking <==> (|r.emitted| > 0 && r.emitted[|r.emitted| - 1] == TalkingSprite))
            && forall i :: 0 <= i < |r.emitted| - 1 && r.emitted[i] == TalkingSprite ==> r.emitted[i + 1] != TalkingSprite
  {
    ConsistentPreserved(false, [], inputs);
    assert [] + AnimateStream(false, inputs).emitted == AnimateStream(false, inputs).emitted;
  }

  // ---------------------------------------------------------------------------
  // ToolProcessor variant
  // ---------------------------------------------------------------------------

  /** The closed tool-to-endpoint table of the variant. */
  const EndpointTable: map<string, string> := map[
    "learning_component" := "/api/nova_sonic/tools/learning_component",
    "show_whiteboard" := "/api/nova_sonic/tools/show_whiteboard",
    "show_video" := "/api/nova_sonic/tools/show_video"
  ]

  const UnknownToolPrefix: string := "Unknown tool: "

  /** Every endpoint of the table is the one the unified bridge derives from the tool name. */
  lemma EndpointIsToolsPath(toolName: string)
    requires toolName in EndpointTable
    ensures EndpointTable[toolName] == ToolBridge.ToolsPath + toolName
  {
    if toolName == "learning_component" {
      assert ToolBridge.ToolsPath + "learning_component" == "/api/nova_sonic/tools/learning_component";
    } else if toolName == "show_whiteboard" {
      assert ToolBridge.ToolsPath + "show_whiteboard" == "/api/nova_sonic/tools/show_whiteboard";
    } else {
      assert ToolBridge.ToolsPath + "show_video" == "/api/nova_sonic/tools/show_video";
    }
  }

  /** One call of the variant `_call_central_tool`; `request` is `None` when no POST is made. */
  datatype VariantCall = VariantCall(
    processor: ToolBridge.Processor,
    request: Option<ToolBridge.Request>,
    arguments: map<string, Json>,
    result: Json)

  /**
   The variant `_call_central_tool`. A session is acquired first, for every
   tool; a tool outside the table is answered with an `Unknown tool` error and
   no request; a tool in the table is called exactly as the unified bridge
   calls it.
   */
  function VariantCallCentralTool(p: ToolBridge.Processor, toolName: string, args: map<string, Json>, o: ToolBridge.HttpOutcome): (c: VariantCall)
    ensures c.processor == ToolBridge.GetSession(p).processor
    ensures toolName !in EndpointTable ==>
      c.request.None? && c.arguments == args && c.result == ErrorObject("Unknown tool: " + toolName)
    ensures toolName in EndpointTable ==>
      var unified := ToolBridge.CallCentralTool(p, toolName, args, o);
      c.request == Some(unified.request) && c.arguments == unified.arguments && c.result == unified.result
  {
    var acquired := ToolBridge.GetSession(p);
    if toolName !in EndpointTable then
      VariantCall(acquired.processor, None, args, ErrorObject(UnknownToolPrefix + toolName))
    else
      var url := p.baseUrl + EndpointTable[toolName];
      EndpointIsToolsPath(toolName);
      assert url == p.baseUrl + ToolBridge.ToolsPath + toolName;
      var sent := ToolBridge.Inject(toolName, args, p.learningContext);
      var request := ToolBridge.Request(url, ToolBridge.Headers(p.authToken), sent);
      VariantCall(acquired.processor, Some(request), sent, ToolBridge.ResultOf(o))
  }

  /**
   The variant `process_frame`: a function call is answered by one result
   frame carrying the JSON text of the result and no arguments; every other
   frame goes on as it came.
   */
  function VariantProcessFrame(p: ToolBridge.Processor, input: Push, o: ToolBridge.HttpOutcome): (r: ToolBridge.Step)
    ensures |r.pushes| == 1 && r.pushes[0].direction == input.direction
    ensures input.frame.FunctionCallInProgress? ==>
      var c := VariantCallCentralTool(p, input.frame.functionName, input.frame.arguments, o);
      && r.pushes[0].frame == FunctionCallResult(input.frame.functionName, input.frame.toolCallId, None, Encoded(c.result))
      && r.processor == c.processor
    ensures !input.frame.FunctionCallInProgress? ==> r.pushes == [input] && r.processor == p
  {
    match input.frame
    case FunctionCallInProgress(name, id, args) =>
      var c := VariantCallCentralTool(p, name, args, o);
      ToolBridge.Step(c.processor, [Push(FunctionCallResult(name, id, None, Encoded(c.result)), input.direction)])
    case _ => ToolBridge.Step(p, [input])
  }

  /**
   The arguments after the callback's own injection: `course_id` and
   `component_id` copied from the bot's learning context when it is set and
   holds them.
   */
  function CallbackInjection(context: Option<map<string, Json>>, args: map<string, Json>): (r: map<string, Json>)
    ensures r == ToolBridge.Inject(ToolBridge.ContextTool, args, context.GetOr(map[]))
  {
    match context
    case None => args
    case Some(m) =>
      if |m| == 0 then args else
      var withCourse := if ToolBridge.CourseKey in m then args[ToolBridge.CourseKey := m[ToolBridge.CourseKey]] else args;
      if ToolBridge.ComponentKey in m then withCourse[ToolBridge.ComponentKey := m[ToolBridge.ComponentKey]] else withCourse
  }

  /**
   The function callbacks registered with the language model service, each for
   its own tool name. The `learning_component` callback injects the context and
   then calls the variant, which injects it again; when the processor holds the
   same context (as `main` builds it), the double injection changes nothing.
   */
  function Callback(p: ToolBridge.Processor, context: Option<map<string, Json>>, toolName: string, args: map<string, Json>, o: ToolBridge.HttpOutcome): (c: VariantCall)
    requires toolName in EndpointTable
    ensures c.request.Some?
    ensures toolName != ToolBridge.ContextTool ==> c == VariantCallCentralTool(p, toolName, args, o)
    ensures toolName == ToolBridge.ContextTool && p.learningContext == context.GetOr(map[]) ==>
      c == VariantCallCentralTool(p, toolName, args, o)
  {
    if toolName == ToolBridge.ContextTool then
      ToolBridge.InjectIdempotent(toolName, args, p.learningContext);
      VariantCallCentralTool(p, toolName, CallbackInjection(context, args), o)
    else VariantCallCentralTool(p, toolName, args, o)
  }

  /**
   The variant answers a call of a tool in its table as the unified bridge
   does: the same processor afterwards, one result frame with the same name,
   call id and direction, carrying the JSON text of the bridge's result but no
   arguments. Any other frame is treated identically by both.
   */
  lemma VariantAnswersLikeBridge(p: ToolBridge.Processor, input: Push, o: ToolBridge.HttpOutcome)
    ensures var v := VariantProcessFrame(p, input, o);
            var u := ToolBridge.ProcessFrame(p, input, o);
            && v.processor == u.processor
            && |v.pushes| == |u.pushes| == 1
            && v.pushes[0].direction == u.pushes[0].direction
            && (!input.frame.FunctionCallInProgress? ==> v == u)
            && (input.frame.FunctionCallInProgress? && input.frame.functionName in EndpointTable ==>
                v.pushes[0].frame == u.pushes[0].frame.(resultArguments := None, result := Encoded(u.pushes[0].frame.result.value)))
  {
  }

  // ---------------------------------------------------------------------------
  // Start-up: the custom payload and the wiring of `main`
  // ---------------------------------------------------------------------------

  /** The `-c` argument: absent (or empty), not valid JSON, or the decoded value. */
  datatype CustomArg = NoCustom | Malformed | Custom(value: Json)

  /** `system_prompt`, `tools` and `learning_context` as `main` reads them. */
  datatype BotSettings = BotSettings(systemPrompt: Json, tools: Json, learningContext: Json)

  /** What `main` starts from when no usable payload is given. */
  const DefaultSettings: BotSettings := BotSettings(JNull, JNull, JObj(map[]))

  /**
   The payload reading of `main`: without a payload, or with one that does not
   decode, the defaults stay; a decoded object supplies the three fields, the
   context defaulting to `{}` only when the key is absent. A decoded value that
   is not an object makes `.get` raise and the bot stop (`None`).
   */
  function ReadCustom(arg: CustomArg): (r: Option<BotSettings>)
    ensures r.None? <==> arg.Custom? && !arg.value.JObj?
    ensures !arg.Custom? ==> r == Some(DefaultSettings)
    ensures r.Some? && arg.Custom? ==>
      && r.value.systemPrompt == Get(arg.value.fields, "system_prompt")
      && r.value.tools == Get(arg.value.fields, "tools")
      && ("learning_context" in arg.value.fields ==> r.value.learningContext == arg.value.fields["learning_context"])
      && ("learning_context" !in arg.value.fields ==> r.value.learningContext == JObj(map[]))
  {
    match arg
    case Custom(JObj(fields)) =>
      Some(BotSettings(Get(fields, "system_prompt"), Get(fields, "tools"), GetOrDefault(fields, "learning_context", JObj(map[]))))
    case Custom(_) => None
    case _ => Some(DefaultSettings)
  }

  /** A learning context the model covers: an object, or a falsy value that reads as no context. */
  predicate DictOrFalsy(j: Json) {
    j.JObj? || !Truthy(j)
  }

  /** The context `main` holds, as the callback sees it: `None` when falsy. */
  function ContextDict(j: Json): (d: Option<map<string, Json>>)
    requires DictOrFalsy(j)
    ensures d.Some? <==> j.JObj?
    ensures d.Some? ==> d.value == j.fields
  {
    if j.JObj? then Some(j.fields) else None
  }

  /** `ToolProcessor(learning_context=learning_context)` as `main` builds it. */
  function BotProcessor(settings: BotSettings, envBaseUrl: Option<string>, envToken: Option<string>): (p: ToolBridge.Processor)
    requires DictOrFalsy(settings.learningContext)
    ensures p.learningContext == ContextDict(settings.learningContext).GetOr(map[])
    ensures p.session.NoSession? && p.authToken == envToken
  {
    ToolBridge.NewProcessor(None, None, ContextDict(settings.learningContext), envBaseUrl, envToken)
  }

  /**
   As `main` wires them, the callbacks inject the context the processor
   already holds, so each callback makes exactly the call the variant makes.
   */
  lemma MainCallbacksInjectOnce(settings: BotSettings, envBaseUrl: Option<string>, envToken: Option<string>,
                                toolName: string, args: map<string, Json>, o: ToolBridge.HttpOutcome)
    requires DictOrFalsy(settings.learningContext) && toolName in EndpointTable
    ensures var p := BotProcessor(settings, envBaseUrl, envToken);
            Callback(p, ContextDict(settings.learningContext), toolName, args, o) == VariantCallCentralTool(p, toolName, args, o)
  {
  }
}

=== FILE: common.dfy ===
/**
 Shared vocabulary for the model: optional values, results, JSON values and
 the two pieces of Python dictionary behaviour the services rely on
 (`dict.get` and truthiness).
 */
module Common {

  /** Python's `Optional[T]`: `None` is the absent value. */
  datatype Option<+T> = None | Some(value: T) {

    function GetOr(default: T): T {
      match this
      case Some(v) => v
      case None => default
    }
  }

  /** A value or the error an operation raises instead of returning. */
  datatype Result<+T, +E> = Ok(value: T) | Err(error: E) {

    predicate IsFailure() {
      Err?
    }

    function PropagateFailure<U>(): Result<U, E>
      requires Err?
    {
      Err(error)
    }

    function Extract(): T
      requires Ok?
    {
      value
    }
  }

  /** A decoded JSON value. `JNull` is Python's `None`. */
  datatype Json =
    | JNull
    | JBool(b: bool)
    | JNum(n: int)
    | JStr(s: string)
    | JArr(items: seq<Json>)
    | JObj(fields: map<string, Json>)

  /** Python truthiness of a decoded JSON value (`bool(v)`). */
  predicate Truthy(j: Json) {
    match j
    case JNull => false
    case JBool(b) => b
    case JNum(n) => n != 0
    case JStr(s) => s != ""
    case JArr(items) => |items| > 0
    case JObj(fields) => |fields| > 0
  }

  /** Python truthiness of an optional string: neither `None` nor `""`. */
  predicate HasText(s: Option<string>) {
    s.Some? && s.value != ""
  }

  /** `d.get(key, default)`: the stored value when the key is present, even a falsy one. */
  function GetOrDefault(d: map<string, Json>, key: string, default: Json): (v: Json)
    ensures key in d ==> v == d[key]
    ensures key !in d ==> v == default
  {
    if key in d then d[key] else default
  }

  /** `d.get(key)`: a missing key reads as `None`. */
  function Get(d: map<string, Json>, key: string): Json {
    GetOrDefault(d, key, JNull)
  }

  /** The one-key object `{"error": message}` that error paths return. */
  function ErrorObject(message: string): Json {
    JObj(map["error" := JStr(message)])
  }
}

=== FILE: frames.dfy ===
/**
 The pipeline frames the processors see and emit. Only the frame kinds the
 processors inspect are distinguished; every other frame is `Other`.
 */
module Frames {
  import opened Common

  /** Which way a frame travels through the pipeline. */
  datatype Direction = Downstream | Upstream

  /** What a result frame carries: the result value itself, or its `json.dumps` text. */
  datatype ResultPayload = Structured(value: Json) | Encoded(value: Json)

  datatype Frame =
    | FunctionCallInProgress(functionName: string, toolCallId: string, arguments: map<string, Json>)
      /** `resultArguments` is `None` when the producer did not pass any. */
    | FunctionCallResult(functionName: string, toolCallId: string, resultArguments: Option<map<string, Json>>, result: ResultPayload)
    | BotStartedSpeaking
    | BotStoppedSpeaking
      /** The sprite animation shown while the bot talks. */
    | TalkingSprite
      /** The still image shown while the bot listens. */
    | QuietImage
    | Other(tag: string)

  /** One call of `push_frame(frame, direction)`. */
  datatype Push = Push(frame: Frame, direction: Direction)
}

=== FILE: handoff.dfy ===
/**
 The hand-off from `server.py` to `bot-nova.py`: the connect endpoints pass
 the request's fields to the bot as a JSON payload, and the bot's `main`
 reads them back. JSON encoding and decoding are taken to be inverse.
 */
module Handoff {
  import opened Common
  import Server
  import NovaBot

  /** The `-c` argument the bot receives for a command the server built. */
  function ArgOf(custom: Option<Server.CustomPayload>): (arg: NovaBot.CustomArg)
    ensures custom.None? ==> arg == NovaBot.NoCustom
    ensures custom.Some? ==> arg == NovaBot.Custom(Server.PayloadJson(custom.value))
  {
    match custom
    case None => NovaBot.NoCustom
    case Some(p) => NovaBot.Custom(Server.PayloadJson(p))
  }

  /**
   What the bot reads is what the request carried: the three fields, an
   absent field reading as `None`; a request with none of them leaves the
   bot on its defaults, with `{}` as context.
   */
  lemma PayloadReachesBot(fields: map<string, Json>)
    ensures var read := NovaBot.ReadCustom(ArgOf(Server.CustomPayloadOf(fields)));
            && read.Some?
            && read.value.systemPrompt == Get(fields, "system_prompt")
            && read.value.tools == Get(fields, "tools")
            && (Server.CustomPayloadOf(fields).Some? ==> read.value.learningContext == Get(fields, "learning_context"))
            && (Server.CustomPayloadOf(fields).None? ==> read.value.learningContext == JObj(map[]))
  {
  }

  /**
   A learning context object sent to `/connect` becomes the context of the
   bot's tool processor, which injects it into `learning_component` calls.
   */
  lemma ContextReachesToolProcessor(fields: map<string, Json>, context: map<string, Json>,
                                    envBaseUrl: Option<string>, envToken: Option<string>)
    requires Get(fields, "learning_context") == JObj(context)
    ensures var read := NovaBot.ReadCustom(ArgOf(Server.CustomPayloadOf(fields)));
            && read.Some?
            && NovaBot.DictOrFalsy(read.value.learningContext)
            && NovaBot.BotProcessor(read.value, envBaseUrl, envToken).learningContext == context
  {
    PayloadReachesBot(fields);
  }
}

=== FILE: server.dfy ===
/**
 The decision rules of `server.py`: which bot module a request selects, the
 per-room admission limit over the registry of spawned bots, the custom
 payload handed to a bot, the status lookup, and the four spawning endpoints
 built from them.

 Room creation, `subprocess.Popen` and `poll()` are inputs: the Daily REST
 answer is a `RoomApi`, the spawn is a `SpawnOutcome`, and whether a process
 has exited is the `alive` flag of its registry entry.
 */
module Server {
  import opened Common
  import opened Text

  /** An `HTTPException`: status code and detail text. */
  datatype HttpError = HttpError(status: int, detail: string)

  const MaxBotsPerRoom: nat := 1
  const BotKinds: set<string> := {"openai", "gemini", "nova", "polly"}
  const BotFiles: set<string> := {"bot-openai", "bot-gemini", "bot-nova", "bot-polly"}
  const DefaultBotKind: string := "nova"
  const KindsHint: string := ". Must be 'openai', 'gemini', 'nova', or 'polly'"

  // ---------------------------------------------------------------------------
  // Bot selection
  // ---------------------------------------------------------------------------

  /**
   The implementation name `get_bot_file` settles on: a non-empty `bot_type`,
   else the `BOT_IMPLEMENTATION` setting, else `nova`; lower-cased and
   stripped; `nova` when that leaves nothing.
   */
  function BotImplementation(botType: Option<string>, envDefault: Option<string>): (name: string)
    ensures name != "" && Trimmed(name)
  {
    var raw := if HasText(botType) then botType.value else envDefault.GetOr(DefaultBotKind);
    var normalised := Strip(Lower(raw));
    if normalised == "" then DefaultBotKind else normalised
  }

  /**
   `get_bot_file(bot_type)`: the module `bot-<name>` when the name is one of
   the four implementations, and the `ValueError` message otherwise.
   */
  function GetBotFile(botType: Option<string>, envDefault: Option<string>): (r: Result<string, string>)
    ensures r.Ok? <==> BotImplementation(botType, envDefault) in BotKinds
    ensures r.Ok? ==> r.value == "bot-" + BotImplementation(botType, envDefault)
    ensures r.Err? ==> r.error == "Invalid bot implementation: " + BotImplementation(botType, envDefault) + KindsHint
  {
    var name := BotImplementation(botType, envDefault);
    if name in BotKinds then Ok("bot-" + name)
    else Err("Invalid bot implementation: " + name + KindsHint)
  }

  /** The module name of each implementation is one of the four bot modules. */
  lemma BotFileOfKind(name: string)
    requires name in BotKinds
    ensures "bot-" + name in BotFiles
  {
    if name == "openai" {
      assert "bot-" + name == "bot-openai";
    } else if name == "gemini" {
      assert "bot-" + name == "bot-gemini";
    } else if name == "nova" {
      assert "bot-" + name == "bot-nova";
    } else {
      assert "bot-" + name == "bot-polly";
    }
  }

  /** `get_bot_file` only ever returns one of the four bot modules. */
  lemma GetBotFileIsOneOfFour(botType: Option<string>, envDefault: Option<string>)
    ensures GetBotFile(botType, envDefault).Ok? ==> GetBotFile(botType, envDefault).value in BotFiles
  {
    var name := BotImplementation(botType, envDefault);
    if name in BotKinds {
      BotFileOfKind(name);
    }
  }

  /** A non-empty `bot_type` is what gets normalised; the setting is not consulted. */
  lemma NamedBotType(botType: string, envDefault: Option<string>)
    requires botType != ""
    ensures BotImplementation(Some(botType), envDefault) ==
      (if Strip(Lower(botType)) == "" then DefaultBotKind else Strip(Lower(botType)))
  {
  }

  /** `get_bot_file` once the implementation name is known to be valid. */
  lemma SelectsKind(botType: Option<string>, envDefault: Option<string>, name: string)
    requires BotImplementation(botType, envDefault) == name && name in BotKinds
    ensures GetBotFile(botType, envDefault) == Ok("bot-" + name)
  {
  }

  lemma NovaFile()
    ensures DefaultBotKind in BotKinds && "bot-" + DefaultBotKind == "bot-nova"
  {
  }

  /** A non-empty `bot_type` decides the implementation whatever the setting holds. */
  lemma BotTypeOverridesSetting(botType: string, first: Option<string>, second: Option<string>)
    requires botType != ""
    ensures BotImplementation(Some(botType), first) == BotImplementation(Some(botType), second)
  {
    NamedBotType(botType, first);
    NamedBotType(botType, second);
  }

  /** An empty `bot_type` is falsy: it selects what an absent one selects. */
  lemma EmptyBotTypeIsAbsent(envDefault: Option<string>)
    ensures BotImplementation(Some(""), envDefault) == BotImplementation(None, envDefault)
  {
  }

  /**
   Without a usable `bot_type` the `BOT_IMPLEMENTATION` setting decides,
   lower-cased and stripped, with `nova` when it is unset or blank.
   */
  lemma SettingDecides(botType: Option<string>, setting: string)
    requires !HasText(botType)
    ensures BotImplementation(botType, Some(setting)) ==
      (if Strip(Lower(setting)) == "" then DefaultBotKind else Strip(Lower(setting)))
    ensures BotImplementation(botType, None) == DefaultBotKind
  {
    assert Lower(DefaultBotKind) == DefaultBotKind;
    StripTrimmed(DefaultBotKind);
  }

  /** A `bot_type` made of whitespace alone selects `nova`, whatever the setting. */
  lemma BlankBotTypeSelectsNova(botType: string, envDefault: Option<string>)
    requires botType != [] && AllSpace(botType)
    ensures GetBotFile(Some(botType), envDefault) == Ok("bot-nova")
  {
    LowerIdempotent(botType);
    StripAllSpace(Lower(botType));
    NamedBotType(botType, envDefault);
    NovaFile();
    SelectsKind(Some(botType), envDefault, DefaultBotKind);
  }

  /**
   The path-parameter routes' check: `bot_type.lower()` must be an
   implementation name. An accepted type is never empty and carries no
   surrounding whitespace.
   */
  predicate RouteAccepts(botType: string): (accepted: bool)
    ensures accepted ==> botType != "" && Trimmed(botType)
  {
    var name := Lower(botType);
    if name in BotKinds then
      KindsTrimmedAndLower(name);
      true
    else false
  }

  lemma KindsTrimmedAndLower(kind: string)
    requires kind in BotKinds
    ensures kind != "" && Trimmed(kind) && Lower(kind) == kind
  {
    if kind == "openai" {
      assert Lower(kind) == kind;
    } else if kind == "gemini" {
      assert Lower(kind) == kind;
    } else if kind == "nova" {
      assert Lower(kind) == kind;
    } else {
      assert Lower(kind) == kind;
    }
  }

  /** A bot type the routes accept is one `get_bot_file` maps to `bot-<lower-cased type>`. */
  lemma RouteAcceptedSelectsBot(botType: string, envDefault: Option<string>)
    requires RouteAccepts(botType)
    ensures GetBotFile(Some(botType), envDefault) == Ok("bot-" + Lower(botType))
  {
    var name := Lower(botType);
    KindsTrimmedAndLower(name);
    StripTrimmed(name);
    assert |botType| == |name|;
    NamedBotType(botType, envDefault);
    assert BotImplementation(Some(botType), envDefault) == name;
  }

  /**
   The routes do not strip: an implementation name followed by whitespace is
   rejected by a path route, while the query-parameter endpoints accept it.
   */
  lemma RoutesDoNotStrip(kind: string, c: char, envDefault: Option<string>)
    requires kind in BotKinds && IsSpace(c)
    ensures !RouteAccepts(kind + [c])
    ensures GetBotFile(Some(kind + [c]), envDefault) == Ok("bot-" + kind)
  {
    var padded := kind + [c];
    PaddedKind(kind, c);
    KindsTrimmedAndLower(kind);
    assert Strip(Lower(padded)) == kind;
    NamedBotType(padded, envDefault);
    assert BotImplementation(Some(padded), envDefault) == kind;
    SelectsKind(Some(padded), envDefault, kind);
  }

  /** A padded implementation name is its own lower-case form, no name itself, and strips back to the name. */
  lemma PaddedKind(kind: string, c: char)
    requires kind in BotKinds && IsSpace(c)
    ensures Lower(kind + [c]) == kind + [c]
    ensures kind + [c] !in BotKinds
    ensures Strip(kind + [c]) == kind
  {
    KindsTrimmedAndLower(kind);
    LowerSnoc(kind, c);
    assert !('A' <= c <= 'Z');
    assert kind + [c] !in BotKinds by {
      if kind + [c] in BotKinds {
        KindsTrimmedAndLower(kind + [c]);
      }
    }
    StripTrailingSpace(kind, c);
  }

  // ---------------------------------------------------------------------------
  // Registry and admission
  // ---------------------------------------------------------------------------

  /** A `bot_procs` entry: the room the bot joined and whether `poll()` still reports it running. */
  datatype BotProc = BotProc(roomUrl: string, alive: bool)

  /** `bot_procs`: process id to entry. */
  type Registry = map<int, BotProc>

  /** The running bots registered for `room`. */
  function LiveInRoom(reg: Registry, room: string): set<int> {
    set pid | pid in reg && reg[pid].roomUrl == room && reg[pid].alive
  }

  /**
   `num_bots_in_room`: zero exactly when no bot registered for `room` is
   still running, and never more than the registry holds.
   */
  function LiveCount(reg: Registry, room: string): (n: nat)
    ensures n == 0 <==> forall pid :: pid in reg && reg[pid].roomUrl == room ==> !reg[pid].alive
    ensures n <= |reg|
  {
    LiveMembers(reg, room);
    |LiveInRoom(reg, room)|
  }

  /** No room has more running bots than `MAX_BOTS_PER_ROOM`. */
  ghost predicate WithinLimit(reg: Registry) {
    forall room :: LiveCount(reg, room) <= MaxBotsPerRoom
  }

  lemma Element<T>(s: set<T>) returns (x: T)
    requires |s| > 0
    ensures x in s
  {
    x :| x in s;
  }

  lemma LiveMembers(reg: Registry, room: string)
    ensures |LiveInRoom(reg, room)| == 0 <==> forall pid :: pid in reg && reg[pid].roomUrl == room ==> !reg[pid].alive
    ensures |LiveInRoom(reg, room)| <= |reg|
  {
    var live := LiveInRoom(reg, room);
    if |live| > 0 {
      var pid := Element(live);
    } else {
      forall pid | pid in reg && reg[pid].roomUrl == room
        ensures !reg[pid].alive
      {
        assert pid in reg && reg[pid].roomUrl == room && reg[pid].alive ==> pid in live;
      }
    }
    SubsetCard(live, reg.Keys);
  }

  /**
   The admission check of the browser endpoints: refused with 500 exactly when
   a running bot is already registered for the room.
   */
  function Admission(reg: Registry, room: string): (r: Result<(), HttpError>)
    ensures r.Ok? <==> forall pid :: pid in reg && reg[pid].roomUrl == room ==> !reg[pid].alive
    ensures r.Err? ==> r.error == HttpError(500, "Max bot limit reached for room: " + room)
  {
    if LiveCount(reg, room) >= MaxBotsPerRoom then Err(HttpError(500, "Max bot limit reached for room: " + room))
    else Ok(())
  }

  lemma SubsetCard(a: set<int>, b: set<int>)
    requires a <= b
    ensures |a| <= |b|
  {
    assert b == a + (b - a);
  }

  /** Registering a running bot in a room with none keeps every room within the limit. */
  lemma {:induction false} RegisterKeepsLimit(reg: Registry, pid: int, room: string)
    requires WithinLimit(reg) && LiveCount(reg, room) == 0
    ensures WithinLimit(reg[pid := BotProc(room, true)])
  {
    var reg' := reg[pid := BotProc(room, true)];
    forall other
      ensures LiveCount(reg', other) <= MaxBotsPerRoom
    {
      if other == room {
        assert LiveInRoom(reg', room) == {pid};
      } else {
        assert LiveInRoom(reg', other) <= LiveInRoom(reg, other);
        SubsetCard(LiveInRoom(reg', other), LiveInRoom(reg, other));
        assert LiveCount(reg, other) <= MaxBotsPerRoom;
      }
    }
  }

  /** `poll()` starts reporting an exit code for `pid`. */
  function Exited(reg: Registry, pid: int): (r: Registry)
    ensures r.Keys == reg.Keys
    ensures pid in reg ==> r[pid] == reg[pid].(alive := false)
    ensures forall q :: q in reg && q != pid ==> r[q] == reg[q]
  {
    if pid in reg then reg[pid := reg[pid].(alive := false)] else reg
  }

  /** A process exiting never takes a room over the limit. */
  lemma {:induction false} ExitKeepsLimit(reg: Registry, pid: int)
    requires WithinLimit(reg)
    ensures WithinLimit(Exited(reg, pid))
  {
    forall room
      ensures LiveCount(Exited(reg, pid), room) <= MaxBotsPerRoom
    {
      assert LiveInRoom(Exited(reg, pid), room) <= LiveInRoom(reg, room);
      SubsetCard(LiveInRoom(Exited(reg, pid), room), LiveInRoom(reg, room));
      assert LiveCount(reg, room) <= MaxBotsPerRoom;
    }
  }

  // ---------------------------------------------------------------------------
  // Status lookup
  // ---------------------------------------------------------------------------

  datatype StatusReply = StatusReply(botId: int, status: string)

  /** `get_status(pid)`: 404 for an unregistered pid; otherwise `running` or `finished`. */
  function GetStatus(reg: Registry, pid: int): (r: Result<StatusReply, HttpError>)
    ensures r.Err? <==> pid !in reg
    ensures r.Err? ==> r.error == HttpError(404, "Bot with process id: " + Decimal(pid) + " not found")
    ensures r.Ok? ==> r.value.botId == pid
    ensures r.Ok? ==> (r.value.status == "running" <==> reg[pid].alive)
    ensures r.Ok? ==> (r.value.status == "finished" <==> !reg[pid].alive)
  {
    if pid !in reg then Err(HttpError(404, "Bot with process id: " + Decimal(pid) + " not found"))
    else Ok(StatusReply(pid, if reg[pid].alive then "running" else "finished"))
  }

  // ---------------------------------------------------------------------------
  // Room, payload and spawn
  // ---------------------------------------------------------------------------

  /** `DAILY_SAMPLE_ROOM_URL` and `DAILY_SAMPLE_ROOM_TOKEN`. */
  datatype RoomEnv = RoomEnv(sampleRoomUrl: Option<string>, sampleRoomToken: Option<string>)

  /** What the Daily REST helper answered: the created room's URL and the token for it. */
  datatype RoomApi = RoomApi(createdUrl: Option<string>, token: Option<string>)

  datatype Room = Room(url: string, token: Option<string>)

  /**
   `create_room_and_token`: the configured sample room when one is set (its
   token as configured, possibly absent), else a newly created room, which
   must come with a URL and a token.
   */
  function CreateRoomAndToken(env: RoomEnv, api: RoomApi): (r: Result<Room, HttpError>)
    ensures HasText(env.sampleRoomUrl) ==> r == Ok(Room(env.sampleRoomUrl.value, env.sampleRoomToken))
    ensures !HasText(env.sampleRoomUrl) ==> (r.Ok? <==> HasText(api.createdUrl) && HasText(api.token))
    ensures !HasText(env.sampleRoomUrl) && r.Ok? ==> r.value == Room(api.createdUrl.value, api.token)
    ensures r.Ok? ==> r.value.url != ""
    ensures r.Err? ==> r.error.status == 500
  {
    if HasText(env.sampleRoomUrl) then Ok(Room(env.sampleRoomUrl.value, env.sampleRoomToken))
    else if !HasText(api.createdUrl) then Err(HttpError(500, "Failed to create room"))
    else if !HasText(api.token) then Err(HttpError(500, "Failed to get token for room: " + api.createdUrl.value))
    else Ok(Room(api.createdUrl.value, api.token))
  }

  /**
   A configured sample room wins: the Daily API's answer is then never
   consulted, so every request gets the same room and token.
   */
  lemma SampleRoomIgnoresApi(env: RoomEnv, first: RoomApi, second: RoomApi)
    requires HasText(env.sampleRoomUrl)
    ensures CreateRoomAndToken(env, first) == CreateRoomAndToken(env, second)
  {
  }

  /** The request body as `request.json()` left it: unreadable, or a decoded value. */
  datatype RequestBody = Unreadable | Body(value: Json)

  /**
   The mapping the connect endpoints read fields from: `{}` when the body does
   not decode; a body that decodes to something other than an object makes
   the later `body.get` raise, which the framework answers with 500.
   */
  function BodyFields(body: RequestBody): (r: Result<map<string, Json>, HttpError>)
    ensures body.Unreadable? ==> r == Ok(map[])
    ensures body.Body? ==> (r.Ok? <==> body.value.JObj?)
    ensures r.Ok? && body.Body? ==> r.value == body.value.fields
  {
    match body
    case Unreadable => Ok(map[])
    case Body(JObj(fields)) => Ok(fields)
    case Body(_) => Err(HttpError(500, "Internal Server Error"))
  }

  /** The object passed to the bot with `-c`, before JSON encoding. */
  datatype CustomPayload = CustomPayload(systemPrompt: Json, tools: Json, learningContext: Json)

  /**
   The custom payload of the connect endpoints: present exactly when one of
   `system_prompt`, `tools`, `learning_context` is not `None`, and then
   carrying all three.
   */
  function CustomPayloadOf(fields: map<string, Json>): (r: Option<CustomPayload>)
    ensures r.Some? <==> (Get(fields, "system_prompt") != JNull || Get(fields, "tools") != JNull || Get(fields, "learning_context") != JNull)
    ensures r.Some? ==> r.value == CustomPayload(Get(fields, "system_prompt"), Get(fields, "tools"), Get(fields, "learning_context"))
  {
    var systemPrompt := Get(fields, "system_prompt");
    var tools := Get(fields, "tools");
    var context := Get(fields, "learning_context");
    if systemPrompt != JNull || tools != JNull || context != JNull then
      Some(CustomPayload(systemPrompt, tools, context))
    else None
  }

  /** The object `json.dumps` encodes for `-c`: always all three keys. */
  function PayloadJson(p: CustomPayload): (j: Json)
    ensures j.JObj? && j.fields.Keys == {"system_prompt", "tools", "learning_context"}
    ensures j.fields["system_prompt"] == p.systemPrompt && j.fields["tools"] == p.tools
    ensures j.fields["learning_context"] == p.learningContext
  {
    JObj(map["system_prompt" := p.systemPrompt, "tools" := p.tools, "learning_context" := p.learningContext])
  }

  /** The outcome of `subprocess.Popen`: the new process id, or the exception's text. */
  datatype SpawnOutcome = Spawned(pid: int) | SpawnFailed(message: string)

  /** `python3 -m <botFile> -u <room> -t <token> [-c <payload>]`, before shell quoting. */
  datatype Command = Command(botFile: string, roomUrl: string, token: Option<string>, custom: Option<CustomPayload>)

  datatype Launch = Launch(registry: Registry, command: Command, pid: int)

  /**
   The spawning block shared by all endpoints: select the module, start the
   process and register `pid -> (process, room)`. Any failure inside it,
   including an invalid bot type, is a 500 and registers nothing.
   */
  function StartBot(reg: Registry, botType: Option<string>, envDefault: Option<string>, room: Room,
                    custom: Option<CustomPayload>, spawn: SpawnOutcome): (r: Result<Launch, HttpError>)
    ensures r.Ok? <==> GetBotFile(botType, envDefault).Ok? && spawn.Spawned?
    ensures r.Ok? ==> r.value.pid == spawn.pid && r.value.registry == reg[spawn.pid := BotProc(room.url, true)]
    ensures r.Ok? ==> r.value.command == Command(GetBotFile(botType, envDefault).value, room.url, room.token, custom)
    ensures r.Err? ==> r.error.status == 500
  {
    match GetBotFile(botType, envDefault)
    case Err(message) => Err(HttpError(500, "Failed to start subprocess: " + message))
    case Ok(botFile) =>
      match spawn
      case SpawnFailed(message) => Err(HttpError(500, "Failed to start subprocess: " + message))
      case Spawned(pid) =>
        Ok(Launch(reg[pid := BotProc(room.url, true)], Command(botFile, room.url, room.token, custom), pid))
  }

  /**
   `get_status` for a launched bot: `running` right after the launch and
   `finished` once its process exits; every other pid reports what it did
   before the launch, and keeps doing so when the new process exits.
   */
  lemma StatusAfterLaunch(reg: Registry, botType: Option<string>, envDefault: Option<string>, room: Room,
                          custom: Option<CustomPayload>, spawn: SpawnOutcome, other: int)
    requires StartBot(reg, botType, envDefault, room, custom, spawn).Ok?
    ensures var launch := StartBot(reg, botType, envDefault, room, custom, spawn).value;
            && GetStatus(launch.registry, launch.pid) == Ok(StatusReply(launch.pid, "running"))
            && GetStatus(Exited(launch.registry, launch.pid), launch.pid) == Ok(StatusReply(launch.pid, "finished"))
            && (other != launch.pid ==> GetStatus(launch.registry, other) == GetStatus(reg, other))
            && (other != launch.pid ==> GetStatus(Exited(launch.registry, launch.pid), other) == GetStatus(reg, other))
  {
    var launch := StartBot(reg, botType, envDefault, room, custom, spawn).value;
    StatusOfRegistered(reg, launch.pid, room.url, other);
  }

  /** Registering `pid` as running, then its exit, as `get_status` sees them. */
  lemma StatusOfRegistered(reg: Registry, pid: int, url: string, other: int)
    ensures var launched := reg[pid := BotProc(url, true)];
            && GetStatus(launched, pid) == Ok(StatusReply(pid, "running"))
            && GetStatus(Exited(launched, pid), pid) == Ok(StatusReply(pid, "finished"))
            && (other != pid ==> GetStatus(launched, other) == GetStatus(reg, other))
            && (other != pid ==> GetStatus(Exited(launched, pid), other) == GetStatus(reg, other))
  {
  }

  // ---------------------------------------------------------------------------
  // Endpoints
  // ---------------------------------------------------------------------------

  /** `BOT_IMPLEMENTATION` and the sample-room settings. */
  datatype Deployment = Deployment(botImplementation: Option<string>, rooms: RoomEnv)

  datatype Reply = Redirect(url: string) | Credentials(roomUrl: string, token: Option<string>)

  datatype Served = Served(registry: Registry, reply: Reply, launch: Launch)

  /** `GET /?bot=`: room, admission check, spawn, redirect to the room. */
  function StartAgent(reg: Registry, bot: Option<string>, env: Deployment, api: RoomApi, spawn: SpawnOutcome): (r: Result<Served, HttpError>)
    ensures r.Ok? ==> CreateRoomAndToken(env.rooms, api).Ok? && spawn.Spawned?
    ensures r.Ok? ==> r.value.reply == Redirect(CreateRoomAndToken(env.rooms, api).value.url)
    ensures r.Ok? ==> LiveCount(reg, r.value.reply.url) == 0
    ensures r.Ok? ==> r.value.registry == reg[spawn.pid := BotProc(r.value.reply.url, true)]
    ensures r.Ok? <==> && CreateRoomAndToken(env.rooms, api).Ok?
                       && LiveCount(reg, CreateRoomAndToken(env.rooms, api).value.url) == 0
                       && GetBotFile(if HasText(bot) then bot else None, env.botImplementation).Ok?
                       && spawn.Spawned?
    ensures r.Ok? ==> var room := CreateRoomAndToken(env.rooms, api).value;
      && r.value.launch.command == Command(GetBotFile(if HasText(bot) then bot else None, env.botImplementation).value,
                                           room.url, room.token, None)
      && r.value.launch.pid == spawn.pid
    ensures r.Err? ==> r.error.status == 500
  {
    var botType := if HasText(bot) then bot else None;
    var room :- CreateRoomAndToken(env.rooms, api);
    var _ :- Admission(reg, room.url);
    var launch :- StartBot(reg, botType, env.botImplementation, room, None, spawn);
    Ok(Served(launch.registry, Redirect(room.url), launch))
  }

  /** The 400 the path-parameter routes answer for a bot type they do not accept. */
  function InvalidBotType(botType: string): HttpError {
    HttpError(400, "Invalid bot type: " + botType + KindsHint)
  }

  /** `GET /{bot_type}`: validate the type first, then as `GET /`. */
  function StartAgentWithBotType(reg: Registry, botType: string, env: Deployment, api: RoomApi, spawn: SpawnOutcome): (r: Result<Served, HttpError>)
    ensures !RouteAccepts(botType) ==> r == Err(InvalidBotType(botType))
    ensures r.Ok? ==> CreateRoomAndToken(env.rooms, api).Ok? && spawn.Spawned?
    ensures r.Ok? ==> r.value.reply == Redirect(CreateRoomAndToken(env.rooms, api).value.url)
    ensures r.Ok? ==> LiveCount(reg, r.value.reply.url) == 0
    ensures r.Ok? ==> r.value.registry == reg[spawn.pid := BotProc(r.value.reply.url, true)]
    ensures r.Ok? ==> r.value.launch.command.botFile == "bot-" + Lower(botType)
    ensures RouteAccepts(botType) ==> r == StartAgent(reg, Some(botType), env, api, spawn)
    ensures r.Ok? <==> && RouteAccepts(botType)
                       && CreateRoomAndToken(env.rooms, api).Ok?
                       && LiveCount(reg, CreateRoomAndToken(env.rooms, api).value.url) == 0
                       && spawn.Spawned?
    ensures r.Err? ==> r.error.status == (if RouteAccepts(botType) then 500 else 400)
  {
    if !RouteAccepts(botType) then Err(InvalidBotType(botType))
    else
      RouteAcceptedSelectsBot(botType, env.botImplementation);
      StartAgent(reg, Some(botType), env, api, spawn)
  }

  /** `POST /connect?bot=`: room, custom payload, spawn; no admission check. */
  function Connect(reg: Registry, bot: Option<string>, body: RequestBody, env: Deployment, api: RoomApi, spawn: SpawnOutcome): (r: Result<Served, HttpError>)
    ensures r.Ok? <==> CreateRoomAndToken(env.rooms, api).Ok? && BodyFields(body).Ok?
                       && GetBotFile(if HasText(bot) then bot else None, env.botImplementation).Ok? && spawn.Spawned?
    ensures r.Ok? ==> var room := CreateRoomAndToken(env.rooms, api).value;
      && r.value.reply == Credentials(room.url, room.token)
      && r.value.registry == reg[spawn.pid := BotProc(room.url, true)]
      && r.value.launch.command == Command(GetBotFile(if HasText(bot) then bot else None, env.botImplementation).value,
                                           room.url, room.token, CustomPayloadOf(BodyFields(body).value))
      && r.value.launch.pid == spawn.pid
    ensures r.Err? ==> r.error.status == 500
  {
    var botType := if HasText(bot) then bot else None;
    var room :- CreateRoomAndToken(env.rooms, api);
    var fields :- BodyFields(body);
    var launch :- StartBot(reg, botType, env.botImplementation, room, CustomPayloadOf(fields), spawn);
    Ok(Served(launch.registry, Credentials(room.url, room.token), launch))
  }

  /** `POST /connect/{bot_type}`: validate the type first, then as `POST /connect`. */
  function ConnectWithBotType(reg: Registry, botType: string, body: RequestBody, env: Deployment, api: RoomApi, spawn: SpawnOutcome): (r: Result<Served, HttpError>)
    ensures !RouteAccepts(botType) ==> r == Err(InvalidBotType(botType))
    ensures RouteAccepts(botType) ==> r == Connect(reg, Some(botType), body, env, api, spawn)
    ensures r.Ok? ==> r.value.launch.command.botFile == "bot-" + Lower(botType)
  {
    if !RouteAccepts(botType) then Err(InvalidBotType(botType))
    else
      RouteAcceptedSelectsBot(botType, env.botImplementation);
      Connect(reg, Some(botType), body, env, api, spawn)
  }

  /** The browser endpoints never take a room over the limit. */
  lemma BrowserEndpointsKeepLimit(reg: Registry, bot: Option<string>, botType: string, env: Deployment, api: RoomApi, spawn: SpawnOutcome)
    requires WithinLimit(reg)
    ensures StartAgent(reg, bot, env, api, spawn).Ok? ==> WithinLimit(StartAgent(reg, bot, env, api, spawn).value.registry)
    ensures StartAgentWithBotType(reg, botType, env, api, spawn).Ok? ==>
      WithinLimit(StartAgentWithBotType(reg, botType, env, api, spawn).value.registry)
  {
    var a := StartAgent(reg, bot, env, api, spawn);
    if a.Ok? {
      RegisterKeepsLimit(reg, spawn.pid, a.value.reply.url);
    }
    var b := StartAgentWithBotType(reg, botType, env, api, spawn);
    if b.Ok? {
      RegisterKeepsLimit(reg, spawn.pid, b.value.reply.url);
    }
  }

  /** A registry holding one running bot is within the limit. */
  lemma SingleBotWithinLimit(pid: int, room: string)
    ensures WithinLimit(map[pid := BotProc(room, true)])
  {
    var reg := map[pid := BotProc(room, true)];
    forall other
      ensures LiveCount(reg, other) <= MaxBotsPerRoom
    {
      if other == room {
        assert LiveInRoom(reg, other) == {pid};
      } else {
        assert LiveInRoom(reg, other) == {};
      }
    }
  }

  /** With neither a `bot_type` nor a `BOT_IMPLEMENTATION` setting, `nova` is selected. */
  lemma DefaultSelectsNova()
    ensures GetBotFile(None, None) == Ok("bot-nova")
  {
    assert Lower(DefaultBotKind) == DefaultBotKind;
    StripTrimmed(DefaultBotKind);
    NovaFile();
    SelectsKind(None, None, DefaultBotKind);
  }

  /** Two running bots registered for the same room break the limit. */
  lemma TwoBotsExceedLimit(first: int, second: int, room: string)
    requires first != second
    ensures var reg := map[first := BotProc(room, true)][second := BotProc(room, true)];
            LiveCount(reg, room) == 2 && !WithinLimit(reg)
  {
    var reg := map[first := BotProc(room, true)][second := BotProc(room, true)];
    assert LiveInRoom(reg, room) == {first, second};
  }

  /**
   The connect endpoints do not check admission: with a sample room configured
   and a bot already running in it, a connect request starts a second one.
   */
  lemma ConnectExceedsLimit(room: string, token: Option<string>, api: RoomApi, first: int, second: int)
    requires room != "" && first != second
    ensures var reg := map[first := BotProc(room, true)];
            var env := Deployment(None, RoomEnv(Some(room), token));
            var r := Connect(reg, None, Unreadable, env, api, Spawned(second));
            && WithinLimit(reg)
            && r.Ok?
            && LiveCount(r.value.registry, room) == 2
            && !WithinLimit(r.value.registry)
  {
    var reg := map[first := BotProc(room, true)];
    SingleBotWithinLimit(first, room);
    DefaultSelectsNova();
    var env := Deployment(None, RoomEnv(Some(room), token));
    TwoBotsExceedLimit(first, second, room);
  }
}

=== FILE: text.dfy ===
/**
 The Python `str` methods the services apply to names and headers:
 `lower()`, `strip()`, `startswith()` and the ASCII test that
 `secrets.compare_digest` performs on `str` arguments.
 */
module Text {

  /** Characters for which Python's `str.isspace()` holds, i.e. what `strip()` removes. */
  predicate IsSpace(c: char) {
    || c == ' ' || c == '\t' || c == '\n' || c == '\r'
    || c == '\U{B}' || c == '\U{C}'
    || ('\U{1C}' <= c <= '\U{1F}')
    || c == '\U{85}' || c == '\U{A0}' || c == '\U{1680}'
    || ('\U{2000}' <= c <= '\U{200A}')
    || c == '\U{2028}' || c == '\U{2029}' || c == '\U{202F}' || c == '\U{205F}' || c == '\U{3000}'
  }

  predicate AllSpace(s: string) {
    forall i :: 0 <= i < |s| ==> IsSpace(s[i])
  }

  /** True when `s` neither starts nor ends with whitespace. */
  predicate Trimmed(s: string) {
    s == [] || (!IsSpace(s[0]) && !IsSpace(s[|s| - 1]))
  }

  /** ASCII case mapping of one character; every other character is left alone. */
  function LowerChar(c: char): char {
    if 'A' <= c <= 'Z' then (c as int + 32) as char else c
  }

  /** `s.lower()` restricted to ASCII letters. */
  function Lower(s: string): (r: string)
    ensures |r| == |s|
  {
    seq(|s|, i requires 0 <= i < |s| => LowerChar(s[i]))
  }

  /**
   The lower-casing rule: each ASCII capital becomes its small letter, and
   every other character is kept.
   */
  lemma LowerRule(s: string)
    ensures forall i :: 0 <= i < |s| ==>
      Lower(s)[i] == (if 'A' <= s[i] <= 'Z' then (s[i] as int - 'A' as int + 'a' as int) as char else s[i])
  {
  }

  /** Lower-casing is character by character, so it commutes with appending. */
  lemma LowerSnoc(s: string, c: char)
    ensures Lower(s + [c]) == Lower(s) + [LowerChar(c)]
  {
    assert forall i :: 0 <= i < |s| ==> (s + [c])[i] == s[i];
  }

  /** Number of whitespace characters at the front of `s`. */
  function LeadingSpaces(s: string): (n: nat)
    ensures n <= |s|
    ensures AllSpace(s[..n])
    ensures n < |s| ==> !IsSpace(s[n])
  {
    if |s| > 0 && IsSpace(s[0]) then
      var k := LeadingSpaces(s[1..]);
      assert s[1..][..k] == s[1..k + 1];
      1 + k
    else 0
  }

  /** Number of whitespace characters at the back of `s`. */
  function TrailingSpaces(s: string): (n: nat)
    ensures n <= |s|
    ensures AllSpace(s[|s| - n..])
    ensures n < |s| ==> !IsSpace(s[|s| - n - 1])
  {
    if |s| > 0 && IsSpace(s[|s| - 1]) then
      var k := TrailingSpaces(s[..|s| - 1]);
      assert s[..|s| - 1][|s| - 1 - k..] == s[|s| - 1 - k..|s| - 1];
      1 + k
    else 0
  }

  /**
   `s.strip()`: the infix of `s` framed by whitespace only that itself neither
   starts nor ends with whitespace; it starts after the leading whitespace.
   */
  function Strip(s: string): (r: string)
    ensures Trimmed(r)
    ensures LeadingSpaces(s) + |r| <= |s|
    ensures s[LeadingSpaces(s)..LeadingSpaces(s) + |r|] == r
    ensures AllSpace(s[..LeadingSpaces(s)]) && AllSpace(s[LeadingSpaces(s) + |r|..])
  {
    var l := LeadingSpaces(s);
    var rest := s[l..];
    var t := TrailingSpaces(rest);
    var r := rest[..|rest| - t];
    assert s[l..l + |r|] == r;
    assert s[l + |r|..] == rest[|rest| - t..];
    assert |r| > 0 ==> r[0] == s[l] && r[|r| - 1] == rest[|rest| - t - 1];
    r
  }

  predicate StartsWith(s: string, prefix: string) {
    |prefix| <= |s| && s[..|prefix|] == prefix
  }

  predicate IsAscii(s: string) {
    forall i :: 0 <= i < |s| ==> s[i] as int < 128
  }

  /** `str(n)` for a non-negative integer: its decimal digits, most significant first. */
  function Digits(n: nat): (r: string)
    ensures |r| > 0
    decreases n
  {
    var last := ['0' + ((n % 10) as char)];
    if n < 10 then last else Digits(n / 10) + last
  }

  /** `str(n)` for any integer. */
  function Decimal(n: int): string {
    if n < 0 then "-" + Digits(-n) else Digits(n)
  }

  /** A string that is already trimmed is its own `strip()`. */
  lemma {:induction false} StripTrimmed(s: string)
    requires Trimmed(s)
    ensures Strip(s) == s
  {
    if s != [] {
      assert LeadingSpaces(s) == 0;
      assert TrailingSpaces(s) == 0;
    }
  }

  /** A non-empty trimmed string followed by one whitespace character strips back to itself. */
  lemma StripTrailingSpace(s: string, c: char)
    requires s != [] && Trimmed(s) && IsSpace(c)
    ensures Strip(s + [c]) == s
  {
    var padded := s + [c];
    assert TrailingSpaces(padded) == 1 by {
      assert padded[..|padded| - 1] == s;
    }
    assert LeadingSpaces(padded) == 0;
    assert padded[0..][..|padded| - 1] == s;
  }

  /** A string of whitespace alone strips to nothing. */
  lemma StripAllSpace(s: string)
    requires AllSpace(s)
    ensures Strip(s) == ""
  {
    assert LeadingSpaces(s) == |s|;
  }

  /** `strip()` is idempotent. */
  lemma StripIdempotent(s: string)
    ensures Strip(Strip(s)) == Strip(s)
  {
    StripTrimmed(Strip(s));
  }

  /** `lower()` is idempotent and leaves whitespace where it was. */
  lemma LowerIdempotent(s: string)
    ensures Lower(Lower(s)) == Lower(s)
    ensures forall i :: 0 <= i < |s| ==> (IsSpace(Lower(s)[i]) <==> IsSpace(s[i]))
  {
  }
}

=== FILE: tool_processor.dfy ===
/**
 The tool-call bridge of `tool_processor.py`: it turns a function-call frame
 coming from the language model into one POST to the Central API and answers
 with exactly one result frame.

 The HTTP client session is a handle counted by `created`; the outcome of the
 POST is an input (`HttpOutcome`), so that every path through
 `_call_central_tool`, including the exception handler, is a value.
 */
module ToolBridge {
  import opened Common
  import opened Frames

  const DefaultBaseUrl: string := "http://localhost:3001"
  const ToolsPath: string := "/api/nova_sonic/tools/"
  /** The only tool whose arguments receive the learning context. */
  const ContextTool: string := "learning_component"
  const CourseKey: string := "course_id"
  const ComponentKey: string := "component_id"
  const BearerPrefix: string := "Bearer "
  const JsonContentType: string := "application/json"
  const FailedPrefix: string := "Tool execution failed: "
  const ErrorPrefix: string := "Tool execution error: "

  /** `_session`: `None`, or the `id`-th client session this processor created. */
  datatype Session = NoSession | Open(id: nat)

  /**
   A `ToolProcessor`. `created` counts the client sessions created so far, so
   that a session created after `cleanup` is visibly a new one.
   */
  datatype Processor = Processor(
    baseUrl: string,
    authToken: Option<string>,
    learningContext: map<string, Json>,
    session: Session,
    created: nat)

  /** The open session, if any, is one this processor created. */
  predicate Valid(p: Processor) {
    p.session.Open? ==> p.session.id < p.created
  }

  /** Everything but the session is fixed at construction. */
  predicate SameConfig(p: Processor, q: Processor) {
    && q.baseUrl == p.baseUrl
    && q.authToken == p.authToken
    && q.learningContext == p.learningContext
  }

  /**
   `ToolProcessor(central_base_url, auth_token, learning_context)` with the
   environment variables `CENTRAL_API_URL` and `CENTRAL_AUTH_TOKEN` passed in.
   */
  function NewProcessor(
    baseUrlArg: Option<string>, tokenArg: Option<string>, contextArg: Option<map<string, Json>>,
    envBaseUrl: Option<string>, envToken: Option<string>): (p: Processor)
    ensures Valid(p) && p.session == NoSession && p.created == 0
    ensures HasText(baseUrlArg) ==> p.baseUrl == baseUrlArg.value
    ensures !HasText(baseUrlArg) && envBaseUrl.Some? ==> p.baseUrl == envBaseUrl.value
    ensures !HasText(baseUrlArg) && envBaseUrl.None? ==> p.baseUrl == DefaultBaseUrl
    ensures HasText(tokenArg) ==> p.authToken == tokenArg
    ensures !HasText(tokenArg) ==> p.authToken == envToken
    ensures contextArg.Some? ==> p.learningContext == contextArg.value
    ensures contextArg.None? ==> p.learningContext == map[]
  {
    var baseUrl := if HasText(baseUrlArg) then baseUrlArg.value else envBaseUrl.GetOr(DefaultBaseUrl);
    var token := if HasText(tokenArg) then tokenArg else envToken;
    // `learning_context or {}`: an empty dict and `None` both become `{}`.
    var context := if contextArg.Some? && |contextArg.value| > 0 then contextArg.value else map[];
    Processor(baseUrl, token, context, NoSession, 0)
  }

  /** The processor after `_get_session`, and the session it returned. */
  datatype Acquired = Acquired(processor: Processor, session: Session)

  /** `_get_session`: create a client session only when there is none. */
  function GetSession(p: Processor): (a: Acquired)
    ensures a.session.Open? && a.processor.session == a.session
    ensures SameConfig(p, a.processor)
    ensures p.session.Open? ==> a.processor == p && a.session == p.session
    ensures p.session.NoSession? ==> a.session.id == p.created && a.processor.created == p.created + 1
    ensures Valid(p) ==> Valid(a.processor)
  {
    if p.session.Open? then Acquired(p, p.session)
    else
      var s := Open(p.created);
      Acquired(p.(session := s, created := p.created + 1), s)
  }

  /** The processor after `cleanup`, and the session it closed, if any. */
  datatype Released = Released(processor: Processor, closed: Option<nat>)

  /** `cleanup`: close the open session, if any, and forget it. */
  function Cleanup(p: Processor): (r: Released)
    ensures r.processor == p.(session := NoSession)
    ensures r.closed.Some? <==> p.session.Open?
    ensures p.session.Open? ==> r.closed.value == p.session.id
  {
    match p.session
    case NoSession => Released(p, None)
    case Open(id) => Released(p.(session := NoSession), Some(id))
  }

  /** A second `cleanup` closes nothing and changes nothing. */
  lemma CleanupIdempotent(p: Processor)
    ensures Cleanup(Cleanup(p).processor) == Released(Cleanup(p).processor, None)
  {
  }

  /** After `cleanup`, the next `_get_session` creates a session never handed out before. */
  lemma FreshSessionAfterCleanup(p: Processor)
    requires Valid(p)
    ensures var a := GetSession(Cleanup(p).processor);
            && a.processor.created == p.created + 1
            && (p.session.Open? ==> a.session.id != p.session.id)
            && a.session.id >= p.created
  {
  }

  /** The context keys copied into `learning_component` arguments. */
  const InjectedKeys: set<string> := {CourseKey, ComponentKey}

  /**
   The in-place context injection of `_call_central_tool`: for the context
   tool, `course_id` and `component_id` are copied from the learning context
   when present there; other tools' arguments are untouched.
   */
  function Inject(toolName: string, args: map<string, Json>, context: map<string, Json>): (r: map<string, Json>)
    ensures toolName != ContextTool ==> r == args
    ensures toolName == ContextTool ==> r.Keys == args.Keys + (context.Keys * InjectedKeys)
    ensures toolName == ContextTool ==>
      forall k :: k in r ==> r[k] == (if k in InjectedKeys && k in context then context[k] else args[k])
  {
    if toolName == ContextTool then
      var withCourse := if CourseKey in context then args[CourseKey := context[CourseKey]] else args;
      if ComponentKey in context then withCourse[ComponentKey := context[ComponentKey]] else withCourse
    else args
  }

  /** Injecting twice gives the arguments a single injection gives. */
  lemma InjectIdempotent(toolName: string, args: map<string, Json>, context: map<string, Json>)
    ensures Inject(toolName, Inject(toolName, args, context), context) == Inject(toolName, args, context)
  {
    var once := Inject(toolName, args, context);
    var twice := Inject(toolName, once, context);
    if toolName == ContextTool {
      assert twice.Keys == once.Keys;
      forall k | k in twice
        ensures twice[k] == once[k]
      {
      }
    }
  }

  /**
   The request headers: always the JSON content type, and a bearer
   `Authorization` exactly when a non-empty token is configured.
   */
  function Headers(token: Option<string>): (h: map<string, string>)
    ensures h.Keys <= {"Authorization", "Content-Type"}
    ensures "Content-Type" in h && h["Content-Type"] == JsonContentType
    ensures "Authorization" in h <==> HasText(token)
    ensures "Authorization" in h ==> h["Authorization"] == BearerPrefix + token.value
  {
    var auth := if HasText(token) then map["Authorization" := BearerPrefix + token.value] else map[];
    auth["Content-Type" := JsonContentType]
  }

  /** The token is prefixed as given: an already prefixed one is prefixed again. */
  lemma BearerNotDeduplicated(raw: string)
    ensures Headers(Some(BearerPrefix + raw))["Authorization"] == "Bearer Bearer " + raw
  {
  }

  /** The POST `_call_central_tool` issues. */
  datatype Request = Request(url: string, headers: map<string, string>, body: map<string, Json>)

  /** How `response.json()` went on a 200 answer. */
  datatype BodyDecode = Decoded(value: Json) | Undecodable(message: string)

  /** What the POST produced: an answer with a status, or an exception with its text. */
  datatype HttpOutcome =
    | Responded(status: int, text: string, body: BodyDecode)
    | Raised(message: string)

  /**
   The result `_call_central_tool` returns for an outcome. It never raises:
   a 200 yields the decoded body verbatim, any other status an `error`
   object carrying the response text, and an exception (including a 200
   whose body does not decode) an `error` object carrying its message.
   */
  function ResultOf(o: HttpOutcome): (r: Json)
    ensures o.Responded? && o.status == 200 && o.body.Decoded? ==> r == o.body.value
    ensures o.Responded? && o.status != 200 ==> r == ErrorObject(FailedPrefix + o.text)
    ensures o.Responded? && o.status == 200 && o.body.Undecodable? ==> r == ErrorObject(ErrorPrefix + o.body.message)
    ensures o.Raised? ==> r == ErrorObject(ErrorPrefix + o.message)
  {
    match o
    case Responded(status, text, body) =>
      if status == 200 then
        match body
        case Decoded(v) => v
        case Undecodable(m) => ErrorObject(ErrorPrefix + m)
      else ErrorObject(FailedPrefix + text)
    case Raised(m) => ErrorObject(ErrorPrefix + m)
  }

  lemma PrefixCancel(p: string, a: string, b: string)
    requires p + a == p + b
    ensures a == b
  {
    assert a == (p + a)[|p|..];
    assert b == (p + b)[|p|..];
  }

  /**
   Error results keep apart what went wrong: an upstream failure never reads
   like a transport error, and distinct failure texts give distinct results.
   */
  lemma {:induction false} ErrorResultsDistinguishable(o1: HttpOutcome, o2: HttpOutcome)
    requires o1.Responded? && o1.status != 200
    ensures o2.Raised? ==> ResultOf(o1) != ResultOf(o2)
    ensures o2.Responded? && o2.status != 200 ==> (ResultOf(o1) == ResultOf(o2) <==> o1.text == o2.text)
  {
    if o2.Raised? {
      var failed, raised := FailedPrefix + o1.text, ErrorPrefix + o2.message;
      assert failed[15] == FailedPrefix[15] != ErrorPrefix[15] == raised[15];
      assert ErrorObject(failed).fields["error"] != ErrorObject(raised).fields["error"];
    }
    if o2.Responded? && o2.status != 200 && ResultOf(o1) == ResultOf(o2) {
      assert ErrorObject(FailedPrefix + o1.text).fields["error"] == ErrorObject(FailedPrefix + o2.text).fields["error"];
      PrefixCancel(FailedPrefix, o1.text, o2.text);
    }
  }

  /** One call of `_call_central_tool`: the processor after it, the POST, the arguments after injection and the result. */
  datatype Call = Call(processor: Processor, request: Request, arguments: map<string, Json>, result: Json)

  /**
   `_call_central_tool(tool_name, tool_arguments)`: any tool name is templated
   into the unified endpoint, the context is injected, and the outcome is
   mapped into a result.
   */
  function CallCentralTool(p: Processor, toolName: string, args: map<string, Json>, o: HttpOutcome): (c: Call)
    ensures c.processor == GetSession(p).processor
    ensures c.request.url == p.baseUrl + "/api/nova_sonic/tools/" + toolName
    ensures c.request.headers == Headers(p.authToken)
    ensures c.request.body == c.arguments == Inject(toolName, args, p.learningContext)
    ensures c.result == ResultOf(o)
  {
    var acquired := GetSession(p);
    var url := p.baseUrl + ToolsPath + toolName;
    var sent := Inject(toolName, args, p.learningContext);
    Call(acquired.processor, Request(url, Headers(p.authToken), sent), sent, ResultOf(o))
  }

  /** The processor after one `process_frame`, and the frames it pushed. */
  datatype Step = Step(processor: Processor, pushes: seq<Push>)

  /**
   The frame `process_frame` pushes for `input`: a function call is answered by
   a result frame with the same name and call id, the injected arguments and
   the call's result; every other frame goes on as it came.
   */
  predicate Answers(context: map<string, Json>, input: Push, o: HttpOutcome, output: Push) {
    && output.direction == input.direction
    && match input.frame
       case FunctionCallInProgress(name, id, args) =>
         output.frame == FunctionCallResult(name, id, Some(Inject(name, args, context)), Structured(ResultOf(o)))
       case _ => output.frame == input.frame
  }

  /** `process_frame(frame, direction)`; `o` is what the POST produces if one is made. */
  function ProcessFrame(p: Processor, input: Push, o: HttpOutcome): (r: Step)
    ensures |r.pushes| == 1 && Answers(p.learningContext, input, o, r.pushes[0])
    ensures input.frame.FunctionCallInProgress? ==> r.processor == GetSession(p).processor
    ensures !input.frame.FunctionCallInProgress? ==> r.processor == p
  {
    match input.frame
    case FunctionCallInProgress(name, id, args) =>
      var c := CallCentralTool(p, name, args, o);
      Step(c.processor, [Push(FunctionCallResult(name, id, Some(c.arguments), Structured(c.result)), input.direction)])
    case _ => Step(p, [input])
  }

  predicate HasCall(inputs: seq<Push>) {
    exists i :: 0 <= i < |inputs| && inputs[i].frame.FunctionCallInProgress?
  }

  /** A stream holds a call when its first frame is one or the rest holds one. */
  lemma HasCallUnfold(inputs: seq<Push>)
    requires |inputs| > 0
    ensures HasCall(inputs) <==> inputs[0].frame.FunctionCallInProgress? || HasCall(inputs[1..])
  {
    if HasCall(inputs[1..]) {
      var j :| 0 <= j < |inputs[1..]| && inputs[1..][j].frame.FunctionCallInProgress?;
      assert inputs[j + 1].frame.FunctionCallInProgress?;
    }
    if HasCall(inputs) && !inputs[0].frame.FunctionCallInProgress? {
      var j :| 0 <= j < |inputs| && inputs[j].frame.FunctionCallInProgress?;
      assert inputs[1..][j - 1].frame.FunctionCallInProgress?;
    }
  }

  /**
   `process_frame` applied to a stream of frames, `outcomes[i]` being what the
   POST for `inputs[i]` produces. Every input yields exactly one push, in
   order, answering it; the configuration never changes; and at most one
   client session is created, none when one is already open.
   */
  function ProcessStream(p: Processor, inputs: seq<Push>, outcomes: seq<HttpOutcome>): (r: Step)
    requires |outcomes| == |inputs|
    ensures |r.pushes| == |inputs|
    ensures forall i :: 0 <= i < |inputs| ==> Answers(p.learningContext, inputs[i], outcomes[i], r.pushes[i])
    ensures SameConfig(p, r.processor)
    ensures Valid(p) ==> Valid(r.processor)
    ensures r.processor.created <= p.created + 1
    ensures p.session.Open? ==> r.processor.session == p.session && r.processor.created == p.created
    ensures HasCall(inputs) ==> r.processor.session.Open?
    ensures !HasCall(inputs) ==> r.processor == p
    decreases |inputs|
  {
    if inputs == [] then Step(p, [])
    else
      var first := ProcessFrame(p, inputs[0], outcomes[0]);
      var rest := ProcessStream(first.processor, inputs[1..], outcomes[1..]);
      HasCallUnfold(inputs);
      Step(rest.processor, first.pushes + rest.pushes)
  }
}
